=== FILE: README.md ===
# SAML authentication-context module, modelled in Dafny

This project models the ASP.NET module `SamlAuthenticationContextModule` and
its default settings provider `RelyingPartySettingsProvider`. The module runs
at the end of every request served by an ADFS identity provider. Sometimes the
provider answers with a 302 redirect that carries a SAML 2.0 `AuthnRequest` in
the redirect binding. When that happens, the module:

1. finds out which relying party the user came from;
2. looks up the credentials and claims that party requires, with a cache in
   front of the lookup;
3. decodes the request (base64, raw DEFLATE, UTF-8, XML);
4. adds a `RequestedAuthnContext` listing those credentials when the request
   asks for nothing or for something outside them;
5. appends an `Extensions/RequestedAttributes` block naming the claims;
6. re-encodes the request into the `SAMLRequest` parameter of the redirect.

The default provider keeps each party's policy in the free-text notes of its
relying-party trust, written `cred,cred\claim,claim`.

Everything is modelled with immutable values and pure functions:

| file | module | contents |
|---|---|---|
| `failures.dfy` | `Failures` | `Option` (.NET `null` is `None`), `Result`, and the error kinds |
| `text.dfy` | `Text` | .NET white space, `IsNullOrWhiteSpace`, `String.Split` on one character, and its inverse `Join` |
| `base64.dfy` | `Base64` | a full model of base64 (section 4 of RFC 4648), with its round trip proved |
| `xml.dfy` | `Xml` | the DOM as an immutable element tree, the lookups the module uses, and `AppendChild`/`InsertBefore` |
| `query.dfy` | `QueryString` | the parsed query string as an ordered key/value list, with the `NameValueCollection` get and set |
| `codec.dfy` | `RedirectCodec` | the redirect-binding codec (section 3.4.4.1 of the SAML 2.0 Bindings specification) and the form-post decoding |
| `provider.dfy` | `SettingsProvider` | the settings-provider interface as a pair of functions over a provider state |
| `settings.dfy` | `RelyingPartySettings` | note parsing and the memoising `GetNotes` of the default provider |
| `policy_cache.dfy` | `PolicyCache` | the module's cached credential and claim lookups, and the default credentials |
| `injector.dfy` | `PolicyInjector` | the class-reference reading, the two document steps, and the rewrite decision |
| `resolver.dfy` | `RelyingPartyResolver` | `GetRelyingPartyId` and its three sources |
| `module.dfy` | `AuthenticationContextModule` | `Application_EndRequest` from start to end |

Several pieces are library code whose internals are out of scope: UTF-8,
DEFLATE, the XML parser and serializer, and the host's URL parsing and
printing. Each is passed in as a function value. The laws the proofs rely on
are stated as ghost predicates or preconditions:

- inflate undoes deflate;
- UTF-8 decoding undoes encoding;
- the parser reads back what the serializer writes.

The ASP.NET cache and the provider's own dictionary are maps, threaded through
the calls. A failure ends the handler with an `Err`. Any cache or provider
updates made before the failure are kept, as they are in the shared objects of
the running code.

## Model

Source paths are relative to the repository root. `SamlAuthenticationContextModule.cs` is abbreviated as the module and `RelyingPartySettingsProvider.cs` as the provider in the third column.

| member | source | states |
|---|---|---|
| Text.Split | Twobo.IdentityModel.Services/SamlAuthenticationContextModule.cs:58 | `String.Split` on one character gives at least one part, no part holds the separator, and joining the parts with it gives the text back |
| Text.SplitJoin | Twobo.IdentityModel.Services/RelyingPartySettingsProvider.cs:57-59 | splitting a joined list of separator-free parts gives the same parts back |
| Base64.Encode | Twobo.IdentityModel.Services/SamlAuthenticationContextModule.cs:250 | the output is four characters per started group of three bytes, each from the alphabet or the `=` pad |
| Base64.Decode | Twobo.IdentityModel.Services/SamlAuthenticationContextModule.cs:335 | only alphabet characters, `=` and skipped white space can decode successfully |
| Base64.RoundTrip | Twobo.IdentityModel.Services/SamlAuthenticationContextModule.cs:234-252 | decoding what was encoded gives the same bytes, for every byte sequence |
| Xml.FirstIndexNamed | Twobo.IdentityModel.Services/SamlAuthenticationContextModule.cs:175 | the DOM's `[localName, namespace]` lookup finds the first child of that name; it finds nothing exactly when no child has that name |
| Xml.AppendChild | Twobo.IdentityModel.Services/SamlAuthenticationContextModule.cs:214 | the new element becomes the last child; the name, the attributes and every earlier child are unchanged and keep their order |
| Xml.ChildNamedAfterAppend | Twobo.IdentityModel.Services/SamlAuthenticationContextModule.cs:226 | after an append, a lookup by name still finds the earlier child; it finds the new element only when no earlier child had its name |
| Xml.InsertChildAt | Twobo.IdentityModel.Services/SamlAuthenticationContextModule.cs:207-209 | `InsertBefore` with a real reference child puts the new element at that child's position and shifts the rest by one |
| Xml.ChildNamedAfterInsert | Twobo.IdentityModel.Services/SamlAuthenticationContextModule.cs:207-212 | an insertion does not change what a lookup for another name finds; the inserted element is found when nothing had its name before |
| QueryString.Get | Twobo.IdentityModel.Services/SamlAuthenticationContextModule.cs:102 | `null` exactly when no parameter has the key; otherwise all of its values, in order, joined with commas; a key that occurs once gives its one value |
| QueryString.ValuesSingle | Twobo.IdentityModel.Services/SamlAuthenticationContextModule.cs:102 | a key that occurs at one position only has exactly the value at that position |
| QueryString.GetAfterSet | Twobo.IdentityModel.Services/SamlAuthenticationContextModule.cs:141 | after `query["SAMLRequest"] = v` the key has the single value `v` |
| QueryString.SetKeepsOthers | Twobo.IdentityModel.Services/SamlAuthenticationContextModule.cs:141 | setting a key leaves every parameter with another key in place and in order |
| QueryString.SetAtFirst | Twobo.IdentityModel.Services/SamlAuthenticationContextModule.cs:141 | `query[k] = v` puts the new parameter where `k` first occurs, drops later occurrences, and keeps every other parameter in place |
| QueryString.SetAbsent | Twobo.IdentityModel.Services/SamlAuthenticationContextModule.cs:141 | `query[k] = v` on a query without `k` appends the parameter |
| QueryString.SetSingle | Twobo.IdentityModel.Services/SamlAuthenticationContextModule.cs:141 | when the key occurs once, setting it replaces that one parameter where it stands |
| RedirectCodec.DecodeRedirect | Twobo.IdentityModel.Services/SamlAuthenticationContextModule.cs:333-351 | the decoding succeeds exactly when the text is valid base64 and its bytes inflate, and then gives the UTF-8 reading of the inflated bytes; every failure is a malformed message |
| RedirectCodec.RoundTrip | Twobo.IdentityModel.Services/SamlAuthenticationContextModule.cs:234-252 | decoding an encoded document gives back its serialized text |
| RedirectCodec.DecodePost | Twobo.IdentityModel.Services/SamlAuthenticationContextModule.cs:360 | the form-post decoding fails exactly on invalid base64 |
| RedirectCodec.PostSkipsInflate | Twobo.IdentityModel.Services/SamlAuthenticationContextModule.cs:353-366 | the post path equals the redirect path with the inflate step replaced by the identity |
| RedirectCodec.PostRoundTrip | Twobo.IdentityModel.Services/SamlAuthenticationContextModule.cs:360 | base64 of UTF-8 text decodes back to the text on the post path |
| RelyingPartySettings.GetNotes | Twobo.IdentityModel.Services/RelyingPartySettingsProvider.cs:65-83 | it returns the stored notes, querying the trust store only on a miss, where it returns and stores that trust's own notes when they are not blank; it fails with a missing key exactly when nothing is stored and the trust is missing or has blank notes; earlier entries never change |
| RelyingPartySettings.NotesMemoised | Twobo.IdentityModel.Services/RelyingPartySettingsProvider.cs:67-80 | with notes stored for an identifier, every trust store gives the same answer and the dictionary stays as it is |
| RelyingPartySettings.NotesSecondLookup | Twobo.IdentityModel.Services/RelyingPartySettingsProvider.cs:67-82 | a second lookup finds what the first one stored, whatever the trust store answers the second time |
| RelyingPartySettings.ParseCredentials | Twobo.IdentityModel.Services/RelyingPartySettingsProvider.cs:55-60 | at least one credential, possibly empty; none holds a comma or backslash; together they rejoin into the text before the first backslash |
| RelyingPartySettings.ParseClaims | Twobo.IdentityModel.Services/RelyingPartySettingsProvider.cs:37-45 | `null` exactly when there is no backslash or the second segment is blank; otherwise the claims rejoin into that segment and hold no comma or backslash |
| RelyingPartySettings.SplitCount | Twobo.IdentityModel.Services/RelyingPartySettingsProvider.cs:41 | `noteParts.Length > 1` holds exactly when the notes contain a backslash |
| RelyingPartySettings.CredentialsBeforeFirstBackslash | Twobo.IdentityModel.Services/RelyingPartySettingsProvider.cs:57-59 | the credentials are the comma split of the first segment, whatever follows the first backslash |
| RelyingPartySettings.ClaimsInSecondSegment | Twobo.IdentityModel.Services/RelyingPartySettingsProvider.cs:39-45 | the claims are the comma split of the second segment (`null` when it is blank or absent); later segments never change the result |
| RelyingPartySettings.GetRequiredCredentials | Twobo.IdentityModel.Services/RelyingPartySettingsProvider.cs:50-63 | the credentials of the stored notes, failing exactly when `GetNotes` fails, with the same dictionary afterwards |
| RelyingPartySettings.GetRequiredClaims | Twobo.IdentityModel.Services/RelyingPartySettingsProvider.cs:32-48 | the claims of the stored notes, failing exactly when `GetNotes` fails, with the same dictionary afterwards |
| AuthenticationContextModule.BuiltInProviderCredentials | Twobo.IdentityModel.Services/RelyingPartySettingsProvider.cs:50-83 | with the built-in provider, a cache miss gives the credentials before the first backslash of the party's notes, the stored ones or else the trust's own (the defaults when that is a single blank entry); a missing trust or blank notes fail the lookup with a missing key and leave the cache as it was |
| RelyingPartySettings.CredentialsNeverNull | Twobo.IdentityModel.Services/RelyingPartySettingsProvider.cs:76-82 | the `notes == null` branch is unreachable: the credentials are never `null` and hold at least one entry; the lookup fails exactly when the trust is missing or its notes are blank |
| PolicyCache.KeysDistinct | Twobo.IdentityModel.Services/SamlAuthenticationContextModule.cs:256-277 | a `_Credentials` key never equals a `_Claims` key, and different parties get different keys |
| PolicyCache.DefaultCredentials | Twobo.IdentityModel.Services/SamlAuthenticationContextModule.cs:50-59 | no default credentials exactly when the setting is missing or blank; otherwise its comma-separated parts, which rejoin into the setting |
| PolicyCache.CredentialsFor | Twobo.IdentityModel.Services/SamlAuthenticationContextModule.cs:254-273 | a hit returns the cached list and touches neither cache nor provider; a miss returns the provider's list, or the defaults when that list is null, empty or a single blank entry, and stores it under the party's key alone; a provider failure on a miss comes back as the provider's own error |
| PolicyCache.ClaimsFor | Twobo.IdentityModel.Services/SamlAuthenticationContextModule.cs:275-288 | a hit returns the cached list; a miss returns the provider's answer unchanged, null included, and stores `answer ?? []` under the party's key alone |
| PolicyCache.CredentialsMemoised | Twobo.IdentityModel.Services/SamlAuthenticationContextModule.cs:257-270 | a second credentials lookup for a party gives the first answer, whatever any provider would say, and leaves cache and provider as they are |
| PolicyCache.ClaimsMemoised | Twobo.IdentityModel.Services/SamlAuthenticationContextModule.cs:278-284 | a second claims lookup answers from the cache, with a first `null` coming back as an empty list |
| PolicyCache.LookupsIndependent | Twobo.IdentityModel.Services/SamlAuthenticationContextModule.cs:254-288 | a claims lookup never disturbs a cached credentials list and a credentials lookup never disturbs cached claims |
| PolicyInjector.RequestedAttributesNamespace | Twobo.IdentityModel.Services/SamlAuthenticationContextModule.cs:45-46 | the configured namespace when it is set (even if empty), the built-in one when it is not |
| PolicyInjector.ClassRefs | Twobo.IdentityModel.Services/SamlAuthenticationContextModule.cs:172-189 | empty when the root has no `RequestedAuthnContext` child; otherwise exactly the texts of the assertion-namespace `AuthnContextClassRef` elements below the first such child |
| PolicyInjector.ClassRef | Twobo.IdentityModel.Services/SamlAuthenticationContextModule.cs:200-202 | a class reference is an element without attributes whose one child is a text node holding the credential, so its inner text is the credential |
| PolicyInjector.RequestedAuthnContext | Twobo.IdentityModel.Services/SamlAuthenticationContextModule.cs:193-205 | the built context is a protocol-namespace `RequestedAuthnContext` with no attributes, so no `Comparison`; its children are exactly one class reference per credential, in list order |
| PolicyInjector.RequestedClassRefs | Twobo.IdentityModel.Services/SamlAuthenticationContextModule.cs:198-205 | reading the class references back from a built context gives exactly the set of credentials |
| PolicyInjector.ClassRefsInOrder | Twobo.IdentityModel.Services/SamlAuthenticationContextModule.cs:198-205 | a built context holds one class reference per credential, in list order, each with the credential as its text |
| PolicyInjector.InsertionPoint | Twobo.IdentityModel.Services/SamlAuthenticationContextModule.cs:207-209 | the position of the first `Scoping` child, or the end when there is none |
| PolicyInjector.AddAuthenticationContext | Twobo.IdentityModel.Services/SamlAuthenticationContextModule.cs:191-230 | with a `Scoping` child the reversed `InsertBefore` fails; otherwise the context is appended last, and the result is refused when the root carries a `ds:Signature` child |
| PolicyInjector.AddAuthenticationContextBeforeScoping | Twobo.IdentityModel.Services/SamlAuthenticationContextModule.cs:207-212 | the behaviour the comments describe: the context is placed straight before the first `Scoping` child (or last), nothing else changes, and a signed request is still refused |
| PolicyInjector.AsWrittenAgreesWithoutScoping | Twobo.IdentityModel.Services/SamlAuthenticationContextModule.cs:210-215 | without `Scoping`, the code and the documented placement give the same result |
| PolicyInjector.ScopingCounterexample | Twobo.IdentityModel.Services/SamlAuthenticationContextModule.cs:218 | an unsigned request with `Issuer` then `Scoping` makes the code fail, while the documented placement puts the context between the two |
| PolicyInjector.SignedRequestRefused | Twobo.IdentityModel.Services/SamlAuthenticationContextModule.cs:221-229 | a signed request is refused by the context step whatever the credentials |
| PolicyInjector.RequestedAttribute | Twobo.IdentityModel.Services/SamlAuthenticationContextModule.cs:158-163 | a metadata-namespace `RequestedAttribute` with no children and exactly four attributes of pairwise different names: `Name` and `FriendlyName` equal to the claim, `isRequired="true"` and the unspecified `NameFormat` |
| PolicyInjector.ExtensionsBlock | Twobo.IdentityModel.Services/SamlAuthenticationContextModule.cs:153-168 | a protocol-namespace `Extensions` element without attributes, whose one child is a `RequestedAttributes` element in the configured namespace whose children are exactly one `RequestedAttribute` per claim, in order, with nothing between them |
| PolicyInjector.AddRequiredClaims | Twobo.IdentityModel.Services/SamlAuthenticationContextModule.cs:151-170 | one new `Extensions` block, holding the claims' requested attributes, is appended as the last child element; every earlier child is unchanged |
| PolicyInjector.ClaimsBlockRoundTrip | Twobo.IdentityModel.Services/SamlAuthenticationContextModule.cs:156-166 | reading the requested attributes back from the block gives exactly the claims in order, every one required |
| PolicyInjector.ExtensionsNeverReused | Twobo.IdentityModel.Services/SamlAuthenticationContextModule.cs:168-169 | each claims step adds one more `Extensions` child; an existing one is never reused |
| PolicyInjector.ApplyCredentials | Twobo.IdentityModel.Services/SamlAuthenticationContextModule.cs:115-128 | the step changes the request exactly when there are credentials and the requested classes are none or not a subset of them; otherwise the request is left as it was; on a change the context is appended last, and the step fails exactly on `Scoping` or a signature |
| PolicyInjector.ApplyClaims | Twobo.IdentityModel.Services/SamlAuthenticationContextModule.cs:130-135 | with no claims (null or empty) nothing changes; otherwise the root keeps its name, attributes and children, the block is appended after them, and the request is marked changed |
| PolicyInjector.ClaimsIgnoreSignature | Twobo.IdentityModel.Services/SamlAuthenticationContextModule.cs:130-135 | the claims step rewrites a signed request too, and keeps its signature |
| PolicyInjector.Rewrite | Twobo.IdentityModel.Services/SamlAuthenticationContextModule.cs:115-135 | the credentials step runs first; its failure ends the rewrite; otherwise the claims step runs on its output |
| PolicyInjector.CredentialsSettle | Twobo.IdentityModel.Services/SamlAuthenticationContextModule.cs:115-128 | once rewritten, a request that had no context of its own asks for exactly the configured credentials, so a second pass leaves it unchanged |
| PolicyInjector.StaleContextWins | Twobo.IdentityModel.Services/SamlAuthenticationContextModule.cs:117-126 | an existing context is kept and stays first: the classes read back do not change, so every pass appends another context |
| RelyingPartyResolver.IdFromDocument | Twobo.IdentityModel.Services/SamlAuthenticationContextModule.cs:375-389 | the text of the first assertion-namespace `Audience` in the document, else of the first `Issuer`, else nothing |
| RelyingPartyResolver.IdFromDecoded | Twobo.IdentityModel.Services/SamlAuthenticationContextModule.cs:368-392 | text that does not parse is a malformed message; otherwise the identifier of the parsed document |
| RelyingPartyResolver.IdIfWsFederation | Twobo.IdentityModel.Services/SamlAuthenticationContextModule.cs:313-316 | an identifier is present exactly when the query has a `wtrealm` parameter, even an empty one; it is the parameter's values joined with commas, so a single `wtrealm` gives its value |
| RelyingPartyResolver.IdIfSamlRedirect | Twobo.IdentityModel.Services/SamlAuthenticationContextModule.cs:318-331 | a missing or blank query `SAMLRequest` gives nothing; otherwise the identifier of its redirect decoding, or that decoding's failure |
| RelyingPartyResolver.IdIfSamlPost | Twobo.IdentityModel.Services/SamlAuthenticationContextModule.cs:353-366 | the same for the form field, decoded without inflate |
| RelyingPartyResolver.GetRelyingPartyId | Twobo.IdentityModel.Services/SamlAuthenticationContextModule.cs:290-311 | sources are tried in the order `wtrealm`, redirect, post; the first identifier wins (the redirect's whenever there is no `wtrealm`), a decoding failure ends the search, and finding none is an unsupported request |
| RelyingPartyResolver.WsFederationWins | Twobo.IdentityModel.Services/SamlAuthenticationContextModule.cs:292-294 | a query with a single `wtrealm` parameter resolves to its value, whatever `SAMLRequest` and the form hold |
| RelyingPartyResolver.NoSourceIsUnsupported | Twobo.IdentityModel.Services/SamlAuthenticationContextModule.cs:302-306 | a request with none of the three parameters is refused |
| RelyingPartyResolver.RedirectRoundTrip | Twobo.IdentityModel.Services/SamlAuthenticationContextModule.cs:318-331 | a redirect request that encodes a document naming an audience or issuer resolves to that identifier, whatever the form holds |
| AuthenticationContextModule.DecodeRequest | Twobo.IdentityModel.Services/SamlAuthenticationContextModule.cs:110-113 | the request decodes exactly when the redirect decoding succeeds and its text parses, and then it is the parsed document; every failure is a malformed message |
| AuthenticationContextModule.DecodeRequestRoundTrip | Twobo.IdentityModel.Services/SamlAuthenticationContextModule.cs:110-113 | a request encoded for the redirect binding decodes back to itself when the parser reads back what the serializer wrote for it |
| AuthenticationContextModule.RewriteLocation | Twobo.IdentityModel.Services/SamlAuthenticationContextModule.cs:137-146 | a new location exactly when a step changed the request; it differs from the old one only in `SAMLRequest`, which holds the encoding of the rewritten request and stands where the key first stood (in place of a single occurrence, with later ones dropped), or last when the key was absent |
| AuthenticationContextModule.RewriteRoundTrip | Twobo.IdentityModel.Services/SamlAuthenticationContextModule.cs:141 | decoding the new `SAMLRequest` gives back the rewritten request, when the parser reads back what the serializer wrote for that request |
| AuthenticationContextModule.RewriteSettles | Twobo.IdentityModel.Services/SamlAuthenticationContextModule.cs:115-146 | running the rewrite on its own output changes nothing when the original request had no context and no claims are required, given that the parser reads back what the serializer wrote for the rewritten request |
| AuthenticationContextModule.EndRequest | Twobo.IdentityModel.Services/SamlAuthenticationContextModule.cs:93-149 | responses other than a 302 with a non-blank location, and redirects without a non-blank `SAMLRequest`, pass through untouched with cache and provider untouched; an unparsable location fails; a failed identifier lookup stops the handler with that error and nothing cached; otherwise the handler is `HandleFor` for the identifier found; the status code never changes; a changed response differs in its redirect location alone |
| AuthenticationContextModule.HandleFor | Twobo.IdentityModel.Services/SamlAuthenticationContextModule.cs:106-146 | the credentials lookup uses the configured defaults, the claims lookup runs on the cache the first one left, either failure stops the handler with that error, and otherwise the response is `Respond` for the configured RequestedAttributes namespace and the two answers |
| AuthenticationContextModule.Respond | Twobo.IdentityModel.Services/SamlAuthenticationContextModule.cs:137-146 | an unchanged request leaves the response as it was; a rewritten one sets the redirect location to the formatted new location and keeps the status code; a failure of the rewrite is the response's failure |
| AuthenticationContextModule.EndRequestRedirects | Twobo.IdentityModel.Services/SamlAuthenticationContextModule.cs:104-146 | a redirect the handler changed points at the rewrite of its own request for the party's looked-up credentials and claims and the configured namespace, and its `SAMLRequest` decodes to that rewritten request |
| AuthenticationContextModule.EndRequestMemoised | Twobo.IdentityModel.Services/SamlAuthenticationContextModule.cs:106-108 | after one successful pass for a party, handling the same request again gives the same response without asking any provider and without changing the cache |

## Left out

- The host wiring is not modelled, because it is plumbing with no logic: `Init`, `Dispose`, the `EndRequest` registration (module lines 62-67), and reading the response and request out of the `HttpApplication`.
- Provider selection is not modelled, because it is configuration, not logic: `ConfigurationManager` and the reflection and `Activator` choice (module lines 45-46, 69-91). The two settings are values of `Settings`, and the provider is a parameter.
- The ADFS trust-store query (`GetRelyingPartyTrustCommand`, provider lines 69-74) is foreign code. It becomes a function from identifier to optional notes.
- Concurrency is not modelled, because the model is sequential. This covers the shared `System.Web.Caching.Cache` and the races between simultaneous first lookups. The cache is a map.
- DEFLATE, UTF-8, `LoadXml` and `OuterXml` are library code, passed in as functions. `Lawful` states the laws of inflate and UTF-8. The parse-after-serialize law is required only of the one document a lemma re-parses (`DecodeRequestRoundTrip`, `RewriteRoundTrip`, `RewriteSettles`), since a real serializer and parser need not agree on every tree. How `MemoryStream.Read` fills its buffer (module line 248) is taken to be a complete read.
- `Uri`, `UriBuilder`, `HttpUtility.ParseQueryString` and the query string's `ToString` are library code. `UrlCodec` stands for them. Percent-escaping is inside those functions. `NameValueCollection` matches keys case-insensitively; the model compares keys exactly. `ToString` regroups a repeated key's values at the key's first position; the model keeps repeated keys where they were (`UrlCodec.format` stands for the regrouping).
- The XML tree has no prefixes, namespace declarations, comments, processing instructions or attribute namespaces. The module never looks at those.
- Exception types are not modelled, because nothing in the module inspects them. All library exceptions collapse into the error kinds of `Failures`.
- Xml.GetAttribute: its contract says the value belongs to some attribute of that name, not to the first one. The module's `RequestedAttribute` elements have pairwise different attribute names, which that member's contract states.

## Code and its comments

The model follows the code wherever the code and its comments part ways:

- **Scoping.** The comment at module lines 207-209 wants the new `RequestedAuthnContext` inserted before `Scoping`. Line 218 calls `InsertBefore(scopingElement, requestedAuthnContextElement)`, which names the new, unattached context as the reference node. The DOM throws, so every request with a `Scoping` child and credentials to enforce fails in the handler. `PolicyInjector.AddAuthenticationContext` models this, and the handler uses it. `AddAuthenticationContextBeforeScoping` models the documented placement beside it, unused. `ScopingCounterexample` shows a concrete request on which the two differ.
- **Signature guard timing.** The guard runs after the context has been appended, on the appended document. It exists only in the credentials step: `ClaimsIgnoreSignature` shows a signed request still gets its claims block.
- **Old context kept.** An existing `RequestedAuthnContext` is never removed or replaced. The new one goes after it, and the first one is what is read back. So a request that asked for a forbidden class is rewritten again on every pass (`StaleContextWins`).
- **Failures propagate.** Nothing is caught. A malformed message, an unsupported request shape or a signed request ends the handler with an error; the original redirect is not let through untouched.
- **Extensions.** An `Extensions` element already present is never reused; a new block is appended each time.
- **Form post.** The form-post source reads the `SAMLRequest` form field as plain base64 of UTF-8, with no inflate and no other unwrapping.
- **`wtrealm`.** The resolver stops at the first non-null identifier, so an empty `wtrealm` is used as the identifier.
- **Defaults.** Default credentials replace a provider answer that is null, empty, or a single blank entry.

=== FILE: base64.dfy ===
/** Base64 with the standard alphabet and `=` padding (section 4 of RFC 4648),
    as `Convert.ToBase64String` writes it and `Convert.FromBase64String`
    reads it. */
module Base64 {
  import opened Failures

  type byte = x: int | 0 <= x < 256

  /** The 64 characters of the alphabet. */
  predicate IsAlphabetChar(c: char) {
    ('A' <= c <= 'Z') || ('a' <= c <= 'z') || ('0' <= c <= '9') || c == '+' || c == '/'
  }

  /** The characters `Convert.FromBase64String` skips wherever they appear. */
  predicate IsSkippedWhiteSpace(c: char) {
    c == ' ' || c == '\t' || c == '\r' || c == '\n'
  }

  /** The character that encodes a 6-bit value. */
  function CharOf(v: int): (c: char)
    requires 0 <= v < 64
    ensures IsAlphabetChar(c)
  {
    if v < 26 then ('A' as int + v) as char
    else if v < 52 then ('a' as int + (v - 26)) as char
    else if v < 62 then ('0' as int + (v - 52)) as char
    else if v == 62 then '+'
    else '/'
  }

  /** The 6-bit value an alphabet character encodes. */
  function ValueOf(c: char): (v: int)
    requires IsAlphabetChar(c)
    ensures 0 <= v < 64
  {
    if 'A' <= c <= 'Z' then c as int - 'A' as int
    else if 'a' <= c <= 'z' then c as int - 'a' as int + 26
    else if '0' <= c <= '9' then c as int - '0' as int + 52
    else if c == '+' then 62
    else 63
  }

  lemma ValueOfCharOf(v: int)
    requires 0 <= v < 64
    ensures ValueOf(CharOf(v)) == v
  {
  }

  /** Three bytes as four characters. */
  function EncodeTriple(b0: byte, b1: byte, b2: byte): string {
    [CharOf(b0 / 4), CharOf(b0 % 4 * 16 + b1 / 16), CharOf(b1 % 16 * 4 + b2 / 64), CharOf(b2 % 64)]
  }

  /** A final two bytes, padded with one `=`. */
  function EncodePair(b0: byte, b1: byte): string {
    [CharOf(b0 / 4), CharOf(b0 % 4 * 16 + b1 / 16), CharOf(b1 % 16 * 4), '=']
  }

  /** A final byte, padded with two `=`. */
  function EncodeSingle(b0: byte): string {
    [CharOf(b0 / 4), CharOf(b0 % 4 * 16), '=', '=']
  }

  /** `Convert.ToBase64String`: every three bytes become four characters;
      a final one or two bytes are padded with `=` to four characters. */
  function Encode(b: seq<byte>): (s: string)
    ensures |s| == (|b| + 2) / 3 * 4
    ensures forall i :: 0 <= i < |s| ==> IsAlphabetChar(s[i]) || s[i] == '='
    decreases |b|
  {
    if |b| == 0 then ""
    else if |b| == 1 then EncodeSingle(b[0])
    else if |b| == 2 then EncodePair(b[0], b[1])
    else EncodeTriple(b[0], b[1], b[2]) + Encode(b[3..])
  }

  /** Drops the skipped white space, keeping every other character in order. */
  function RemoveWhiteSpace(s: string): (r: string)
    ensures forall i :: 0 <= i < |r| ==> !IsSkippedWhiteSpace(r[i])
    ensures forall c :: c in r <==> c in s && !IsSkippedWhiteSpace(c)
    ensures (forall i :: 0 <= i < |s| ==> !IsSkippedWhiteSpace(s[i])) ==> r == s
  {
    if |s| == 0 then ""
    else if IsSkippedWhiteSpace(s[0]) then RemoveWhiteSpace(s[1..])
    else [s[0]] + RemoveWhiteSpace(s[1..])
  }

  /** The three bytes four 6-bit values carry. */
  function Join3(x: int, y: int, z: int, w: int): seq<byte>
    requires 0 <= x < 64 && 0 <= y < 64 && 0 <= z < 64 && 0 <= w < 64
  {
    [x * 4 + y / 16, y % 16 * 16 + z / 4, z % 4 * 64 + w]
  }

  /** The three bytes four alphabet characters carry. */
  function Triple(a: char, b: char, c: char, d: char): seq<byte>
    requires IsAlphabetChar(a) && IsAlphabetChar(b) && IsAlphabetChar(c) && IsAlphabetChar(d)
  {
    Join3(ValueOf(a), ValueOf(b), ValueOf(c), ValueOf(d))
  }

  /** The final quadruple: no padding gives three bytes, one `=` two bytes,
      two `=` one byte. The bits the padding leaves unused are dropped. */
  function DecodeLast(a: char, b: char, c: char, d: char): Option<seq<byte>>
  {
    if IsAlphabetChar(a) && IsAlphabetChar(b) && IsAlphabetChar(c) && IsAlphabetChar(d) then
      Some(Triple(a, b, c, d))
    else if IsAlphabetChar(a) && IsAlphabetChar(b) && IsAlphabetChar(c) && d == '=' then
      Some([ValueOf(a) * 4 + ValueOf(b) / 16, ValueOf(b) % 16 * 16 + ValueOf(c) / 4])
    else if IsAlphabetChar(a) && IsAlphabetChar(b) && c == '=' && d == '=' then
      Some([ValueOf(a) * 4 + ValueOf(b) / 16])
    else None
  }

  /** Decodes white-space-free text quadruple by quadruple; padding may only
      end the text. */
  function DecodeQuads(s: string): (r: Option<seq<byte>>)
    ensures r.Some? ==> forall i :: 0 <= i < |s| ==> IsAlphabetChar(s[i]) || s[i] == '='
    decreases |s|
  {
    if |s| == 0 then Some([])
    else if |s| < 4 then None
    else if |s| == 4 then DecodeLast(s[0], s[1], s[2], s[3])
    else if IsAlphabetChar(s[0]) && IsAlphabetChar(s[1]) && IsAlphabetChar(s[2]) && IsAlphabetChar(s[3]) then
      match DecodeQuads(s[4..])
      case None => None
      case Some(rest) =>
        assert forall i :: 4 <= i < |s| ==> s[i] == s[4..][i - 4];
        Some(Triple(s[0], s[1], s[2], s[3]) + rest)
    else None
  }

  /** `Convert.FromBase64String`; `None` is its `FormatException`. */
  function Decode(s: string): (r: Option<seq<byte>>)
    ensures r.Some? ==> forall c :: c in s ==> IsAlphabetChar(c) || c == '=' || IsSkippedWhiteSpace(c)
  {
    var t := RemoveWhiteSpace(s);
    var r := DecodeQuads(t);
    assert r.Some? ==> forall c :: c in t ==> IsAlphabetChar(c) || c == '=';
    r
  }

  lemma Join3Split(b0: byte, b1: byte, b2: byte)
    ensures Join3(b0 / 4, b0 % 4 * 16 + b1 / 16, b1 % 16 * 4 + b2 / 64, b2 % 64) == [b0, b1, b2]
  {
    var (y, z) := (b0 % 4 * 16 + b1 / 16, b1 % 16 * 4 + b2 / 64);
    assert y / 16 == b0 % 4 && y % 16 == b1 / 16;
    assert z / 4 == b1 % 16 && z % 4 == b2 / 64;
  }

  lemma EncodeTripleAlphabet(b0: byte, b1: byte, b2: byte)
    ensures var q := EncodeTriple(b0, b1, b2);
      |q| == 4 && forall i :: 0 <= i < 4 ==> IsAlphabetChar(q[i])
  {
  }

  lemma TripleRoundTrip(b0: byte, b1: byte, b2: byte)
    ensures var q := EncodeTriple(b0, b1, b2);
      && (forall i :: 0 <= i < 4 ==> IsAlphabetChar(q[i]))
      && Triple(q[0], q[1], q[2], q[3]) == [b0, b1, b2]
  {
    EncodeTripleAlphabet(b0, b1, b2);
    var (x, y, z, w) := (b0 / 4, b0 % 4 * 16 + b1 / 16, b1 % 16 * 4 + b2 / 64, b2 % 64);
    var q := EncodeTriple(b0, b1, b2);
    ValueOfCharOf(x);
    ValueOfCharOf(y);
    ValueOfCharOf(z);
    ValueOfCharOf(w);
    assert Triple(q[0], q[1], q[2], q[3]) == Join3(x, y, z, w);
    Join3Split(b0, b1, b2);
  }

  lemma SingleRoundTrip(b0: byte)
    ensures DecodeQuads(EncodeSingle(b0)) == Some([b0])
  {
    ValueOfCharOf(b0 / 4);
    ValueOfCharOf(b0 % 4 * 16);
  }

  lemma PairRoundTrip(b0: byte, b1: byte)
    ensures DecodeQuads(EncodePair(b0, b1)) == Some([b0, b1])
  {
    var (y, z) := (b0 % 4 * 16 + b1 / 16, b1 % 16 * 4);
    ValueOfCharOf(b0 / 4);
    ValueOfCharOf(y);
    ValueOfCharOf(z);
    assert y / 16 == b0 % 4 && y % 16 == b1 / 16;
    assert z / 4 == b1 % 16;
  }

  /** Four alphabet characters carrying three bytes, in front of text that
      decodes, decode to those three bytes in front of the rest. */
  lemma DecodeQuadsStep(q: string, rest: string, b0: byte, b1: byte, b2: byte, tail: seq<byte>)
    requires |q| == 4
    requires forall i :: 0 <= i < 4 ==> IsAlphabetChar(q[i])
    requires Triple(q[0], q[1], q[2], q[3]) == [b0, b1, b2]
    requires DecodeQuads(rest) == Some(tail)
    ensures DecodeQuads(q + rest) == Some([b0, b1, b2] + tail)
  {
    var s := q + rest;
    assert s[..4] == q && s[4..] == rest;
    if |rest| == 0 {
      assert tail == [];
      assert s == q;
      assert DecodeQuads(s) == DecodeLast(q[0], q[1], q[2], q[3]);
      assert DecodeLast(q[0], q[1], q[2], q[3]) == Some([b0, b1, b2]);
      assert [b0, b1, b2] + tail == [b0, b1, b2];
    } else {
      assert DecodeQuads(s) == Some(Triple(q[0], q[1], q[2], q[3]) + tail);
    }
  }

  lemma HeadAndTail(b: seq<byte>)
    requires |b| >= 3
    ensures [b[0], b[1], b[2]] + b[3..] == b
  {
  }

  lemma EncodeUnfold(b: seq<byte>)
    requires |b| >= 3
    ensures Encode(b) == EncodeTriple(b[0], b[1], b[2]) + Encode(b[3..])
  {
  }

  /** One step of the round trip: a leading triple decodes back in front of
      whatever the rest decodes to. */
  lemma TripleStep(b: seq<byte>)
    requires |b| >= 3
    requires DecodeQuads(Encode(b[3..])) == Some(b[3..])
    ensures DecodeQuads(Encode(b)) == Some(b)
  {
    EncodeUnfold(b);
    TripleRoundTrip(b[0], b[1], b[2]);
    DecodeQuadsStep(EncodeTriple(b[0], b[1], b[2]), Encode(b[3..]), b[0], b[1], b[2], b[3..]);
    HeadAndTail(b);
  }

  lemma {:induction false} DecodeQuadsEncode(b: seq<byte>)
    ensures DecodeQuads(Encode(b)) == Some(b)
    decreases |b|
  {
    if |b| == 1 {
      SingleRoundTrip(b[0]);
      assert [b[0]] == b;
    } else if |b| == 2 {
      PairRoundTrip(b[0], b[1]);
      assert [b[0], b[1]] == b;
    } else if |b| >= 3 {
      DecodeQuadsEncode(b[3..]);
      TripleStep(b);
    }
  }

  lemma EncodeHasNoWhiteSpace(b: seq<byte>)
    ensures RemoveWhiteSpace(Encode(b)) == Encode(b)
  {
    var s := Encode(b);
    assert forall i :: 0 <= i < |s| ==> !IsSkippedWhiteSpace(s[i]);
  }

  /** Reading back what `Encode` wrote gives the bytes again. */
  lemma RoundTrip(b: seq<byte>)
    ensures Decode(Encode(b)) == Some(b)
  {
    EncodeHasNoWhiteSpace(b);
    DecodeQuadsEncode(b);
  }
}

=== FILE: codec.dfy ===
/** The redirect-binding codec (section 3.4.4.1 of the SAML 2.0 Bindings
    specification): the XML text of a message, UTF-8 encoded, compressed with
    raw DEFLATE (RFC 1951) and base64 encoded (section 4 of RFC 4648). Base64
    is modelled in full; UTF-8, DEFLATE and the XML parser and serializer are
    library code, passed in as functions and constrained by their round-trip
    laws. */
module RedirectCodec {
  import opened Failures
  import Base64
  import opened Xml

  type Bytes = seq<Base64.byte>

  /** The library functions the codec calls. */
  datatype Libraries = Libraries(
    utf8Encode: string -> Bytes,        // Encoding.UTF8.GetBytes
    utf8Decode: Bytes -> string,        // Encoding.UTF8.GetString; never fails
    deflate: Bytes -> Bytes,            // DeflateStream, CompressionMode.Compress
    inflate: Bytes -> Option<Bytes>,    // DeflateStream, CompressionMode.Decompress; None when the data is corrupt
    serialize: Element -> string,       // XmlDocument.OuterXml
    parse: string -> Option<Element>)   // XmlDocument.LoadXml; None when the text is not well-formed

  /** The laws the libraries keep: inflating what was deflated gives it back,
      and decoding UTF-8 that was encoded gives the text back. */
  ghost predicate Lawful(lib: Libraries) {
    && (forall b :: lib.inflate(lib.deflate(b)) == Some(b))
    && (forall s :: lib.utf8Decode(lib.utf8Encode(s)) == s)
  }

  /** `EncodeSamlRedirectMessage`. */
  function EncodeRedirect(lib: Libraries, doc: Element): string
  {
    Base64.Encode(lib.deflate(lib.utf8Encode(lib.serialize(doc))))
  }

  /** `DecodeSamlRedirectMessage`: base64, then inflate, then UTF-8. A failure
      of either of the first two is a malformed message. */
  function DecodeRedirect(lib: Libraries, encoded: string): (r: Result<string>)
    ensures r.Err? ==> r.error == MalformedMessage
    ensures r.Ok? <==> Base64.Decode(encoded).Some? && lib.inflate(Base64.Decode(encoded).value).Some?
    ensures r.Ok? ==> exists b :: lib.inflate(Base64.Decode(encoded).value) == Some(b) && r.value == lib.utf8Decode(b)
  {
    match Base64.Decode(encoded)
    case None => Err(MalformedMessage)
    case Some(compressed) =>
      match lib.inflate(compressed)
      case None => Err(MalformedMessage)
      case Some(b) => Ok(lib.utf8Decode(b))
  }

  /** The form-post path of the identifier resolver: base64 then UTF-8, with
      no inflate step. */
  function DecodePost(lib: Libraries, encoded: string): (r: Result<string>)
    ensures r.Err? <==> Base64.Decode(encoded).None?
    ensures r.Err? ==> r.error == MalformedMessage
  {
    match Base64.Decode(encoded)
    case None => Err(MalformedMessage)
    case Some(b) => Ok(lib.utf8Decode(b))
  }

  /** Decoding an encoded document yields exactly its serialized text. */
  lemma RoundTrip(lib: Libraries, doc: Element)
    requires Lawful(lib)
    ensures DecodeRedirect(lib, EncodeRedirect(lib, doc)) == Ok(lib.serialize(doc))
  {
    var compressed := lib.deflate(lib.utf8Encode(lib.serialize(doc)));
    Base64.RoundTrip(compressed);
    assert lib.inflate(compressed) == Some(lib.utf8Encode(lib.serialize(doc)));
  }

  /** The post path is the redirect path without the inflate step: with an
      inflate that returns its input, the two decoders agree on every input. */
  lemma PostSkipsInflate(lib: Libraries, encoded: string)
    ensures DecodePost(lib, encoded) == DecodeRedirect(lib.(inflate := b => Some(b)), encoded)
  {
  }

  /** The post path reads base64 of plain UTF-8 back to the text. */
  lemma PostRoundTrip(lib: Libraries, text: string)
    requires Lawful(lib)
    ensures DecodePost(lib, Base64.Encode(lib.utf8Encode(text))) == Ok(text)
  {
    Base64.RoundTrip(lib.utf8Encode(text));
  }
}

=== FILE: failures.dfy ===
/** Failure-compatible wrappers shared by every part of the model, and the
    failures the intercepting module can end in. A .NET `null` is `None`;
    an exception that escapes is `Err`. */
module Failures {

  /** A nullable value: `None` stands for a .NET `null`. */
  datatype Option<+T> = None | Some(value: T) {

    predicate IsFailure() {
      None?
    }

    function PropagateFailure<U>(): Option<U>
      requires None?
    {
      None
    }

    function Extract(): T
      requires Some?
    {
      value
    }

    /** The C# `??` operator. */
    function GetOr(default: T): T {
      match this
      case Some(v) => v
      case None => default
    }
  }

  /** The ways a rewrite attempt can end in an exception. Failures of the
      base64, DEFLATE and XML libraries share one kind: their exception
      types are not distinguished. */
  datatype Error =
    | MalformedMessage        // base64, DEFLATE or XML could not be read
    | MalformedUrl            // the redirect location is not an absolute URI
    | UnsupportedRequestShape // no relying-party identifier in the request
    | KeyNotFound             // the settings provider has no notes for the party
    | ScopingInsertFailed     // InsertBefore called with a reference node that is not a child
    | SignedRequestNotSupported
    | ProviderFailed          // any failure of a settings provider other than the built-in one

  datatype Result<+T> = Ok(value: T) | Err(error: Error) {

    predicate IsFailure() {
      Err?
    }

    function PropagateFailure<U>(): Result<U>
      requires Err?
    {
      Err(error)
    }

    function Extract(): T
      requires Ok?
    {
      value
    }
  }
}

=== FILE: injector.dfy ===
/** The rewriting of an `AuthnRequest` (section 3.4.1 of the SAML 2.0 Core
    specification): the `RequestedAuthnContext` the relying party must be
    held to, and the non-standard `Extensions/RequestedAttributes` block
    naming the claims it needs. */
module PolicyInjector {
  import opened Failures
  import opened Xml

  const ProtocolNs := "urn:oasis:names:tc:SAML:2.0:protocol"
  const AssertionNs := "urn:oasis:names:tc:SAML:2.0:assertion"
  const MetadataNs := "urn:oasis:names:tc:SAML:2.0:metadata"
  const DsigNs := "http://www.w3.org/2000/09/xmldsig#"
  const DefaultRequestedAttributesNs := "http://claims.twobotechnologies.com/2014/03/requested_attributes"
  const UnspecifiedNameFormat := "urn:oasis:names:tc:SAML:2.0:attrname-format:unspecified"

  const RequestedAuthnContextName := QName("RequestedAuthnContext", ProtocolNs)
  const ClassRefName := QName("AuthnContextClassRef", AssertionNs)
  const ScopingName := QName("Scoping", ProtocolNs)
  const SignatureName := QName("Signature", DsigNs)
  const ExtensionsName := QName("Extensions", ProtocolNs)
  const RequestedAttributeName := QName("RequestedAttribute", MetadataNs)

  function RequestedAttributesName(ns: string): QName {
    QName("RequestedAttributes", ns)
  }

  /** The `RequestedAttributesElementNamespace` setting, or the built-in
      namespace when the setting is absent (an empty setting is kept). */
  function RequestedAttributesNamespace(setting: Option<string>): (r: string)
    ensures setting.Some? ==> r == setting.value
    ensures setting.None? ==> r == DefaultRequestedAttributesNs
  {
    setting.GetOr(DefaultRequestedAttributesNs)
  }

  // ---------------------------------------------------------------------
  // Requested authentication context

  /** `GetRequestedAuthenticationClassReferences`: the texts of the class
      references below the first `RequestedAuthnContext` child of the root. */
  function ClassRefs(doc: Element): (r: set<string>)
    ensures ChildNamed(doc, RequestedAuthnContextName).None? ==> r == {}
    ensures ChildNamed(doc, RequestedAuthnContextName).Some? ==>
      var rac := ChildNamed(doc, RequestedAuthnContextName).value;
      forall x :: x in r <==> exists c :: c in Descendants(rac) && c.name == ClassRefName && InnerText(c) == x
  {
    match ChildNamed(doc, RequestedAuthnContextName)
    case None => {}
    case Some(rac) => set c | c in ElementsByTagName(rac, ClassRefName) :: InnerText(c)
  }

  /** The rewrite of the context applies when there are credentials to
      require and the request names no class at all, or a class outside them. */
  predicate CredentialsApply(requested: set<string>, creds: seq<string>) {
    |creds| > 0 && (requested == {} || !(requested <= set c | c in creds))
  }

  /** One `AuthnContextClassRef` whose inner text is the credential. */
  function ClassRef(credential: string): (r: Element)
    ensures r.name == ClassRefName && IsLeaf(r)
    ensures InnerText(r) == credential
    ensures r.attributes == [] && r.children == [TextNode(credential)]
  {
    var r := Element(ClassRefName, [], [TextNode(credential)]);
    assert InnerTextFrom(r, 1) == "";
    assert InnerTextFrom(r, 0) == credential + "";
    r
  }

  function ClassRefNodes(creds: seq<string>): (r: seq<Node>)
    ensures |r| == |creds|
    ensures forall i :: 0 <= i < |r| ==> r[i] == ElementNode(ClassRef(creds[i]))
  {
    if |creds| == 0 then [] else [ElementNode(ClassRef(creds[0]))] + ClassRefNodes(creds[1..])
  }

  /** The `RequestedAuthnContext` built for the credentials: one class
      reference per credential, in order, and no `Comparison` attribute
      (exact comparison is the protocol's default). */
  function RequestedAuthnContext(creds: seq<string>): (r: Element)
    ensures r.name == RequestedAuthnContextName && r.attributes == []
    ensures IsFlat(r)
    ensures |r.children| == |creds|
    ensures forall k :: 0 <= k < |creds| ==> r.children[k] == ElementNode(ClassRef(creds[k]))
  {
    Element(RequestedAuthnContextName, [], ClassRefNodes(creds))
  }

  /** Reading the class references back out of a built context gives exactly
      the credentials it was built from. */
  lemma RequestedClassRefs(creds: seq<string>)
    ensures (set c | c in ElementsByTagName(RequestedAuthnContext(creds), ClassRefName) :: InnerText(c))
      == set x | x in creds
  {
    var rac := RequestedAuthnContext(creds);
    FlatDescendants(rac, 0);
    assert rac.children[0..] == rac.children;
    var found := ElementsByTagName(rac, ClassRefName);
    forall c | c in found
      ensures InnerText(c) in creds
    {
      assert ElementNode(c) in rac.children;
      var i :| 0 <= i < |creds| && rac.children[i] == ElementNode(c);
      assert c == ClassRef(creds[i]);
    }
    forall x | x in creds
      ensures exists c :: c in found && InnerText(c) == x
    {
      var i :| 0 <= i < |creds| && creds[i] == x;
      assert rac.children[i] == ElementNode(ClassRef(x));
      assert ClassRef(x) in found;
    }
  }

  /** The class references of a built context, in document order: one per
      credential, in the order given, each with the credential as its text. */
  lemma ClassRefsInOrder(creds: seq<string>)
    ensures var found := ElementsByTagName(RequestedAuthnContext(creds), ClassRefName);
      |found| == |creds| && forall i :: 0 <= i < |creds| ==> found[i] == ClassRef(creds[i]) && InnerText(found[i]) == creds[i]
  {
    var rac := RequestedAuthnContext(creds);
    FlatDescendants(rac, 0);
    assert rac.children[0..] == rac.children;
    ElementsOfElements(rac.children);
    NamedAll(ElementsOf(rac.children), ClassRefName);
  }

  /** Where the context goes: straight before the first `Scoping` child, or
      last when there is none; nothing else changes. */
  predicate PlacedBeforeScoping(doc: Element, d: Element, x: Element) {
    && d.name == doc.name && d.attributes == doc.attributes
    && exists k :: (0 <= k <= |doc.children|
      && d.children == doc.children[..k] + [ElementNode(x)] + doc.children[k..]
      && (forall j :: 0 <= j < k ==> !IsElementNamed(doc.children[j], ScopingName))
      && (k < |doc.children| ==> IsElementNamed(doc.children[k], ScopingName)))
  }

  /** The position the schema's child order (Subject, NameIDPolicy,
      Conditions, RequestedAuthnContext, Scoping) calls for. */
  function InsertionPoint(doc: Element): (k: nat)
    ensures k <= |doc.children|
    ensures forall j :: 0 <= j < k ==> !IsElementNamed(doc.children[j], ScopingName)
    ensures k < |doc.children| ==> IsElementNamed(doc.children[k], ScopingName)
    ensures k == |doc.children| <==> ChildNamed(doc, ScopingName).None?
  {
    FirstNamedNodes(doc.children, ScopingName);
    match FirstNodeIndexNamed(doc.children, ScopingName)
    case None => |doc.children|
    case Some(k) => k
  }

  /** `AddAuthenticationContext` as the code stands. The new context is
      appended as the last child. With a `Scoping` child the call
      `InsertBefore(scoping, context)` names as reference node the new
      context, which is not a child of the root, and the DOM throws. The
      signature test runs after the append, on the appended document. */
  function AddAuthenticationContext(creds: seq<string>, doc: Element): (r: Result<Element>)
    ensures ChildNamed(doc, ScopingName).Some? ==> r == Err(ScopingInsertFailed)
    ensures r.Ok? <==> ChildNamed(doc, ScopingName).None? && ChildNamed(doc, SignatureName).None?
    ensures r.Ok? ==> r.value == AppendChild(doc, RequestedAuthnContext(creds))
    ensures r.Err? && ChildNamed(doc, ScopingName).None? ==> r.error == SignedRequestNotSupported
  {
    if ChildNamed(doc, ScopingName).Some? then Err(ScopingInsertFailed)
    else
      var d := AppendChild(doc, RequestedAuthnContext(creds));
      ChildNamedAfterAppend(doc, RequestedAuthnContext(creds), SignatureName);
      if ChildNamed(d, SignatureName).Some? then Err(SignedRequestNotSupported) else Ok(d)
  }

  /** What the comments of `AddAuthenticationContext` describe, which the
      code does not do: the new context inserted straight before `Scoping`
      (appended when there is none), a signed request still refused. The
      handler does not use this; it stands beside the code as written. */
  function AddAuthenticationContextBeforeScoping(creds: seq<string>, doc: Element): (r: Result<Element>)
    ensures r.Ok? <==> ChildNamed(doc, SignatureName).None?
    ensures r.Err? ==> r.error == SignedRequestNotSupported
    ensures r.Ok? ==> PlacedBeforeScoping(doc, r.value, RequestedAuthnContext(creds))
    ensures r.Ok? && ChildNamed(doc, RequestedAuthnContextName).None? ==>
      ChildNamed(r.value, RequestedAuthnContextName) == Some(RequestedAuthnContext(creds))
  {
    var rac := RequestedAuthnContext(creds);
    var k := InsertionPoint(doc);
    var d := InsertChildAt(doc, k, rac);
    ChildNamedAfterInsert(doc, k, rac, SignatureName);
    ChildNamedAfterInsert(doc, k, rac, RequestedAuthnContextName);
    assert d.children == doc.children[..k] + [ElementNode(rac)] + doc.children[k..];
    if ChildNamed(d, SignatureName).Some? then Err(SignedRequestNotSupported) else Ok(d)
  }

  /** Without `Scoping` the code and the documented insertion agree. */
  lemma AsWrittenAgreesWithoutScoping(creds: seq<string>, doc: Element)
    requires ChildNamed(doc, ScopingName).None?
    ensures AddAuthenticationContext(creds, doc) == AddAuthenticationContextBeforeScoping(creds, doc)
  {
    var k := InsertionPoint(doc);
    assert doc.children[..k] == doc.children && doc.children[k..] == [];
    assert InsertChildAt(doc, k, RequestedAuthnContext(creds)) == AppendChild(doc, RequestedAuthnContext(creds));
  }

  const ExampleClass := "urn:oasis:names:tc:SAML:2.0:ac:classes:X509"

  function ExampleIssuer(): Element {
    Element(QName("Issuer", AssertionNs), [], [TextNode("https://rp.example")])
  }

  function ExampleScoping(): Element {
    Element(ScopingName, [], [])
  }

  /** A small unsigned request: an `Issuer`, then a `Scoping`. */
  function ExampleRequest(): Element {
    Element(QName("AuthnRequest", ProtocolNs), [], [ElementNode(ExampleIssuer()), ElementNode(ExampleScoping())])
  }

  /** On the example request the code fails, while the documented
      insertion puts the context between the issuer and the scoping. */
  lemma ScopingCounterexample()
    ensures AddAuthenticationContext([ExampleClass], ExampleRequest()) == Err(ScopingInsertFailed)
    ensures AddAuthenticationContextBeforeScoping([ExampleClass], ExampleRequest()) ==
      Ok(ExampleRequest().(children :=
        [ElementNode(ExampleIssuer()), ElementNode(RequestedAuthnContext([ExampleClass])), ElementNode(ExampleScoping())]))
  {
    var (doc, issuer, scoping) := (ExampleRequest(), ExampleIssuer(), ExampleScoping());
    var rac := RequestedAuthnContext([ExampleClass]);
    assert ChildElements(doc) == [issuer, scoping] by {
      ElementsOfSuffix(doc.children, 0);
      ElementsOfSuffix(doc.children, 1);
      assert doc.children[0..] == doc.children;
    }
    assert issuer.name != ScopingName && issuer.name != SignatureName;
    FirstNamedCons(issuer, [scoping], ScopingName);
    FirstNamedCons(issuer, [scoping], SignatureName);
    FirstNamedCons(scoping, [], ScopingName);
    FirstNamedCons(scoping, [], SignatureName);
    assert [scoping] == [scoping] + [];
    assert ChildNamed(doc, ScopingName) == Some(scoping);
    assert ChildNamed(doc, SignatureName) == None;
    var k := InsertionPoint(doc);
    assert k == 1;
    assert doc.children[..1] == [ElementNode(issuer)] && doc.children[1..] == [ElementNode(scoping)];
    var d := InsertChildAt(doc, k, rac);
    assert d.children == [ElementNode(issuer), ElementNode(rac), ElementNode(scoping)];
    ChildNamedAfterInsert(doc, k, rac, SignatureName);
  }

  // ---------------------------------------------------------------------
  // Requested claims

  /** One `RequestedAttribute` in the SAML metadata namespace, with its
      attributes set in the order the module sets them. */
  function RequestedAttribute(claim: string): (r: Element)
    ensures r.name == RequestedAttributeName && r.children == []
    ensures GetAttribute(r, "Name") == Some(claim) && GetAttribute(r, "FriendlyName") == Some(claim)
    ensures GetAttribute(r, "isRequired") == Some("true")
    ensures GetAttribute(r, "NameFormat") == Some(UnspecifiedNameFormat)
    ensures |r.attributes| == 4
    ensures forall i, j :: 0 <= i < j < |r.attributes| ==> r.attributes[i].name != r.attributes[j].name
  {
    var attrs := [Attribute("Name", claim), Attribute("FriendlyName", claim),
                  Attribute("isRequired", "true"), Attribute("NameFormat", UnspecifiedNameFormat)];
    assert attrs[1..] == [attrs[1], attrs[2], attrs[3]];
    assert attrs[1..][1..] == [attrs[2], attrs[3]];
    assert attrs[1..][1..][1..] == [attrs[3]];
    AttributeNamesDistinct();
    assert forall i, j :: 0 <= i < j < |attrs| ==> attrs[i].name != attrs[j].name by {
      forall i, j | 0 <= i < j < |attrs| ensures attrs[i].name != attrs[j].name {
        if i == 0 {
          assert attrs[i].name == "Name";
        } else if i == 1 {
          assert attrs[i].name == "FriendlyName";
        } else {
          assert i == 2 && j == 3;
        }
      }
    }
    assert AttributeIn(attrs[1..][1..][1..], "NameFormat") == Some(UnspecifiedNameFormat);
    assert AttributeIn(attrs[1..][1..], "NameFormat") == Some(UnspecifiedNameFormat);
    assert AttributeIn(attrs[1..][1..], "isRequired") == Some("true");
    assert AttributeIn(attrs[1..], "NameFormat") == Some(UnspecifiedNameFormat);
    assert AttributeIn(attrs[1..], "isRequired") == Some("true");
    assert AttributeIn(attrs[1..], "FriendlyName") == Some(claim);
    Element(RequestedAttributeName, attrs, [])
  }

  /** The four attribute names of a `RequestedAttribute` differ pairwise. */
  lemma AttributeNamesDistinct()
    ensures "Name" != "FriendlyName" && "Name" != "isRequired" && "Name" != "NameFormat"
    ensures "FriendlyName" != "isRequired" && "FriendlyName" != "NameFormat" && "isRequired" != "NameFormat"
  {
    assert |"Name"| != |"FriendlyName"| && |"Name"| != |"isRequired"| && |"Name"| != |"NameFormat"|;
    assert |"FriendlyName"| != |"isRequired"| && |"FriendlyName"| != |"NameFormat"|;
    assert "isRequired"[0] != "NameFormat"[0];
  }

  function RequestedAttributeNodes(claims: seq<string>): (r: seq<Node>)
    ensures |r| == |claims|
    ensures forall i :: 0 <= i < |r| ==> r[i] == ElementNode(RequestedAttribute(claims[i]))
  {
    if |claims| == 0 then [] else [ElementNode(RequestedAttribute(claims[0]))] + RequestedAttributeNodes(claims[1..])
  }

  /** The `Extensions` element holding one `RequestedAttributes` element in
      namespace `ns`, holding one `RequestedAttribute` per claim. */
  function ExtensionsBlock(ns: string, claims: seq<string>): (r: Element)
    ensures r.name == ExtensionsName && r.attributes == []
    ensures |r.children| == 1 && r.children[0].ElementNode?
    ensures r.children[0].element.name == RequestedAttributesName(ns) && r.children[0].element.attributes == []
    ensures ChildElements(r.children[0].element) == RequestedAttributes(claims)
    ensures r.children[0].element.children == RequestedAttributeNodes(claims)
  {
    ElementsOfAttributes(claims);
    Element(ExtensionsName, [],
      [ElementNode(Element(RequestedAttributesName(ns), [], RequestedAttributeNodes(claims)))])
  }

  /** `AddRequiredClaims`: a new block is appended under the root every
      time; an `Extensions` element already there is never reused. */
  function AddRequiredClaims(ns: string, claims: seq<string>, doc: Element): (r: Element)
    ensures r.name == doc.name && r.attributes == doc.attributes
    ensures |r.children| == |doc.children| + 1
    ensures r.children[..|doc.children|] == doc.children
    ensures r.children == doc.children + [ElementNode(ExtensionsBlock(ns, claims))]
    ensures ChildElements(r) == ChildElements(doc) + [ExtensionsBlock(ns, claims)]
  {
    AppendChildElements(doc, ExtensionsBlock(ns, claims));
    AppendChild(doc, ExtensionsBlock(ns, claims))
  }

  /** The `Name` attribute of each element, in order. */
  function ClaimNames(es: seq<Element>): (r: seq<Option<string>>)
    ensures |r| == |es|
    ensures forall i :: 0 <= i < |es| ==> r[i] == GetAttribute(es[i], "Name")
  {
    if |es| == 0 then [] else [GetAttribute(es[0], "Name")] + ClaimNames(es[1..])
  }

  /** The `RequestedAttribute` elements for the claims, in order. */
  function RequestedAttributes(claims: seq<string>): (r: seq<Element>)
    ensures |r| == |claims|
    ensures forall i :: 0 <= i < |r| ==> r[i] == RequestedAttribute(claims[i])
  {
    if |claims| == 0 then [] else [RequestedAttribute(claims[0])] + RequestedAttributes(claims[1..])
  }

  lemma {:induction false} ElementsOfAttributes(claims: seq<string>)
    ensures ElementsOf(RequestedAttributeNodes(claims)) == RequestedAttributes(claims)
    decreases |claims|
  {
    if |claims| > 0 {
      ElementsOfAttributes(claims[1..]);
      assert RequestedAttributeNodes(claims)[1..] == RequestedAttributeNodes(claims[1..]);
    }
  }

  /** Reading the block back: the requested attributes below it, in document
      order, name exactly the claims, in order, and all are required. */
  lemma ClaimsBlockRoundTrip(ns: string, claims: seq<string>)
    ensures var names := ClaimNames(ElementsByTagName(ExtensionsBlock(ns, claims), RequestedAttributeName));
      |names| == |claims| && forall i :: 0 <= i < |claims| ==> names[i] == Some(claims[i])
    ensures forall e :: e in ElementsByTagName(ExtensionsBlock(ns, claims), RequestedAttributeName) ==>
      GetAttribute(e, "isRequired") == Some("true")
  {
    var attrs := RequestedAttributes(claims);
    ExtensionsRequestedAttributes(ns, claims);
    var names := ClaimNames(attrs);
    assert forall i :: 0 <= i < |claims| ==> names[i] == Some(claims[i]) by {
      forall i | 0 <= i < |claims| ensures names[i] == Some(claims[i]) {
        assert attrs[i] == RequestedAttribute(claims[i]);
      }
    }
  }

  /** The `RequestedAttribute` elements anywhere below the block are the
      claims' elements, in order. */
  lemma ExtensionsRequestedAttributes(ns: string, claims: seq<string>)
    ensures ElementsByTagName(ExtensionsBlock(ns, claims), RequestedAttributeName) == RequestedAttributes(claims)
  {
    var ras := Element(RequestedAttributesName(ns), [], RequestedAttributeNodes(claims));
    var attrs := RequestedAttributes(claims);
    ExtensionsDescendants(ns, claims);
    ListNameDiffers(ns);
    NamedSkipsHead(ras, attrs, RequestedAttributeName);
    AttributesNamedAlike(claims);
    NamedAll(attrs, RequestedAttributeName);
  }

  /** Every claim's element is a `RequestedAttribute`. */
  lemma AttributesNamedAlike(claims: seq<string>)
    ensures forall j :: 0 <= j < |RequestedAttributes(claims)| ==> RequestedAttributes(claims)[j].name == RequestedAttributeName
  {
  }

  /** The list element and its items have different names. */
  lemma ListNameDiffers(ns: string)
    ensures RequestedAttributesName(ns) != RequestedAttributeName
  {
    assert |RequestedAttributesName(ns).local| != |RequestedAttributeName.local|;
  }

  /** Below the block: the `RequestedAttributes` element, then the claims'
      elements, which have no children of their own. */
  lemma ExtensionsDescendants(ns: string, claims: seq<string>)
    ensures Descendants(ExtensionsBlock(ns, claims))
      == [Element(RequestedAttributesName(ns), [], RequestedAttributeNodes(claims))] + RequestedAttributes(claims)
  {
    var ext := ExtensionsBlock(ns, claims);
    var ras := Element(RequestedAttributesName(ns), [], RequestedAttributeNodes(claims));
    var attrs := RequestedAttributes(claims);
    FlatDescendants(ras, 0);
    assert ras.children[0..] == ras.children;
    ElementsOfAttributes(claims);
    assert DescendantsFrom(ext, 1) == [];
    assert DescendantsFrom(ext, 0) == [ras] + DescendantsFrom(ras, 0) + [];
  }

  /** Every call adds one more `Extensions` child. */
  lemma ExtensionsNeverReused(ns: string, claims: seq<string>, doc: Element)
    ensures |Named(ChildElements(AddRequiredClaims(ns, claims, doc)), ExtensionsName)|
      == |Named(ChildElements(doc), ExtensionsName)| + 1
  {
    NamedConcat(ChildElements(doc), [ExtensionsBlock(ns, claims)], ExtensionsName);
  }

  // ---------------------------------------------------------------------
  // The two steps of the rewrite

  /** The request after a step, and whether any step changed it. */
  datatype Injection = Injection(doc: Element, changed: bool)

  /** The credentials step of `Application_EndRequest`. */
  function ApplyCredentials(creds: seq<string>, doc: Element): (r: Result<Injection>)
    ensures !CredentialsApply(ClassRefs(doc), creds) ==> r == Ok(Injection(doc, false))
    ensures CredentialsApply(ClassRefs(doc), creds) ==>
      && (r.Ok? <==> ChildNamed(doc, ScopingName).None? && ChildNamed(doc, SignatureName).None?)
      && (r.Err? ==> r.error == ScopingInsertFailed || r.error == SignedRequestNotSupported)
      && (r.Ok? ==> r.value.changed && ChildElements(r.value.doc) == ChildElements(doc) + [RequestedAuthnContext(creds)])
      && (r.Ok? ==> r.value.doc == AppendChild(doc, RequestedAuthnContext(creds)))
  {
    if CredentialsApply(ClassRefs(doc), creds) then
      var d :- AddAuthenticationContext(creds, doc);
      AppendChildElements(doc, RequestedAuthnContext(creds));
      Ok(Injection(d, true))
    else Ok(Injection(doc, false))
  }

  /** A signed request is refused by the context step whatever the
      credentials, and the refusal comes after the new context was built. */
  lemma SignedRequestRefused(creds: seq<string>, doc: Element)
    requires ChildNamed(doc, SignatureName).Some?
    ensures AddAuthenticationContext(creds, doc).Err?
    ensures CredentialsApply(ClassRefs(doc), creds) ==> ApplyCredentials(creds, doc).Err?
  {
  }

  /** The claims step has no signature test: a signed request still gets
      its claims block. */
  lemma ClaimsIgnoreSignature(ns: string, claims: seq<string>, inj: Injection)
    requires ChildNamed(inj.doc, SignatureName).Some? && |claims| > 0
    ensures ApplyClaims(ns, Some(claims), inj).changed
    ensures ChildNamed(ApplyClaims(ns, Some(claims), inj).doc, SignatureName) == ChildNamed(inj.doc, SignatureName)
  {
    ChildNamedAfterAppend(inj.doc, ExtensionsBlock(ns, claims), SignatureName);
  }

  /** The claims step: it runs whatever the credentials step did, and never
      looks at a signature. */
  function ApplyClaims(ns: string, claims: Option<seq<string>>, inj: Injection): (r: Injection)
    ensures claims.None? || |claims.value| == 0 ==> r == inj
    ensures claims.Some? && |claims.value| > 0 ==>
      r.changed && ChildElements(r.doc) == ChildElements(inj.doc) + [ExtensionsBlock(ns, claims.value)]
    ensures claims.Some? && |claims.value| > 0 ==>
      && r.doc.name == inj.doc.name && r.doc.attributes == inj.doc.attributes
      && r.doc.children == inj.doc.children + [ElementNode(ExtensionsBlock(ns, claims.value))]
  {
    if claims.Some? && |claims.value| > 0 then Injection(AddRequiredClaims(ns, claims.value, inj.doc), true)
    else inj
  }

  /** Both steps, credentials first. */
  function Rewrite(ns: string, creds: seq<string>, claims: Option<seq<string>>, doc: Element): (r: Result<Injection>)
    ensures r.Ok? <==> ApplyCredentials(creds, doc).Ok?
    ensures r.Ok? ==> r.value == ApplyClaims(ns, claims, ApplyCredentials(creds, doc).value)
  {
    var inj :- ApplyCredentials(creds, doc);
    Ok(ApplyClaims(ns, claims, inj))
  }

  /** A request with no context of its own, once rewritten, asks for
      exactly the configured credentials, so a second pass leaves it alone. */
  lemma CredentialsSettle(creds: seq<string>, doc: Element)
    requires ChildNamed(doc, RequestedAuthnContextName).None?
    requires ApplyCredentials(creds, doc).Ok?
    ensures var d := ApplyCredentials(creds, doc).value.doc;
      && (ApplyCredentials(creds, doc).value.changed ==> ClassRefs(d) == set x | x in creds)
      && ApplyCredentials(creds, d) == Ok(Injection(d, false))
  {
    var inj := ApplyCredentials(creds, doc).value;
    if inj.changed {
      ChildNamedAfterAppend(doc, RequestedAuthnContext(creds), RequestedAuthnContextName);
      RequestedClassRefs(creds);
      assert ClassRefs(inj.doc) == set x | x in creds;
      assert creds[0] in ClassRefs(inj.doc);
    }
  }

  /** An existing context is never removed and stays first: the class
      references read back are the old ones, so the step fires again on every
      pass and the request grows by one context each time. */
  lemma StaleContextWins(creds: seq<string>, doc: Element)
    requires ChildNamed(doc, RequestedAuthnContextName).Some?
    requires ApplyCredentials(creds, doc).Ok? && ApplyCredentials(creds, doc).value.changed
    ensures var d := ApplyCredentials(creds, doc).value.doc;
      && ChildNamed(d, RequestedAuthnContextName) == ChildNamed(doc, RequestedAuthnContextName)
      && ClassRefs(d) == ClassRefs(doc)
      && ApplyCredentials(creds, d) == Ok(Injection(AppendChild(d, RequestedAuthnContext(creds)), true))
  {
    var rac := RequestedAuthnContext(creds);
    ChildNamedAfterAppend(doc, rac, RequestedAuthnContextName);
    ChildNamedAfterAppend(doc, rac, ScopingName);
    ChildNamedAfterAppend(doc, rac, SignatureName);
  }
}

=== FILE: module.dfy ===
/** `Application_EndRequest`: when the identity provider answers with a
    302 whose location carries a redirect-binding `SAMLRequest`, the request
    is decoded, held to the relying party's credentials and claims, and
    re-encoded into the location. The shared cache and the settings
    provider's state are threaded through; everything they held before a
    failure stays as it was left. */
module AuthenticationContextModule {
  import opened Failures
  import opened Text
  import opened Xml
  import QueryString
  import RedirectCodec
  import opened SettingsProvider
  import opened PolicyCache
  import opened PolicyInjector
  import opened RelyingPartyResolver
  import RelyingPartySettings

  /** An absolute URL: everything but the query, and the query parsed by
      `HttpUtility.ParseQueryString`. */
  datatype Url = Url(base: string, query: QueryString.Query)

  /** The host's URL handling: `new Uri(text)` with the query parsed (`None`
      when the text is not an absolute URL), and `UriBuilder.ToString` with
      the query written back by the collection's `ToString`. */
  datatype UrlCodec = UrlCodec(parse: string -> Option<Url>, format: Url -> string)

  /** The two application settings the module reads. */
  datatype Settings = Settings(defaultCredentials: Option<string>, requestedAttributesNamespace: Option<string>)

  datatype Response = Response(statusCode: int, redirectLocation: Option<string>)

  /** The response after the handler, with the cache and provider state. */
  datatype Handled<S> = Handled(response: Result<Response>, cache: Cache, state: S)

  /** The module steps in only on a 302 with a location. */
  predicate Engages(resp: Response) {
    resp.statusCode == 302 && !IsNullOrBlank(resp.redirectLocation)
  }

  /** `DecodeSamlRedirectMessage` followed by `LoadXml`. */
  function DecodeRequest(lib: RedirectCodec.Libraries, encoded: string): (r: Result<Element>)
    ensures r.Err? ==> r.error == MalformedMessage
    ensures r.Ok? <==> RedirectCodec.DecodeRedirect(lib, encoded).Ok? &&
                       lib.parse(RedirectCodec.DecodeRedirect(lib, encoded).value).Some?
    ensures r.Ok? ==> Some(r.value) == lib.parse(RedirectCodec.DecodeRedirect(lib, encoded).value)
  {
    var text :- RedirectCodec.DecodeRedirect(lib, encoded);
    match lib.parse(text)
    case None => Err(MalformedMessage)
    case Some(d) => Ok(d)
  }

  /** A request encoded for the redirect binding decodes back to itself, when
      the libraries keep their laws and the parser reads back what the
      serializer writes for that request. */
  lemma DecodeRequestRoundTrip(lib: RedirectCodec.Libraries, doc: Element)
    requires RedirectCodec.Lawful(lib)
    requires lib.parse(lib.serialize(doc)) == Some(doc)
    ensures DecodeRequest(lib, RedirectCodec.EncodeRedirect(lib, doc)) == Ok(doc)
  {
    RedirectCodec.RoundTrip(lib, doc);
  }

  /** Decoding, rewriting and re-encoding the request once the policy is
      known: `None` when neither step changed it, otherwise the new location,
      which differs from the old one in the `SAMLRequest` parameter alone. */
  function RewriteLocation(lib: RedirectCodec.Libraries, ns: string, creds: seq<string>,
                           claims: Option<seq<string>>, url: Url, encoded: string): (r: Result<Option<Url>>)
    ensures r.Ok? <==> DecodeRequest(lib, encoded).Ok? && Rewrite(ns, creds, claims, DecodeRequest(lib, encoded).value).Ok?
    ensures r.Ok? ==> (r.value.Some? <==> Rewrite(ns, creds, claims, DecodeRequest(lib, encoded).value).value.changed)
    ensures r.Ok? && r.value.Some? ==>
      && r.value.value.base == url.base
      && QueryString.Without(r.value.value.query, "SAMLRequest") == QueryString.Without(url.query, "SAMLRequest")
      && QueryString.Get(r.value.value.query, "SAMLRequest") ==
         Some(RedirectCodec.EncodeRedirect(lib, Rewrite(ns, creds, claims, DecodeRequest(lib, encoded).value).value.doc))
    ensures r.Ok? && r.value.Some? ==>
      var p := QueryString.Parameter("SAMLRequest",
        RedirectCodec.EncodeRedirect(lib, Rewrite(ns, creds, claims, DecodeRequest(lib, encoded).value).value.doc));
      && (forall i: nat :: QueryString.FirstOccursAt(url.query, "SAMLRequest", i) ==>
            r.value.value.query == url.query[..i] + [p] + QueryString.Without(url.query[i + 1..], "SAMLRequest"))
      && (forall i: nat :: QueryString.OccursOnlyAt(url.query, "SAMLRequest", i) ==>
            r.value.value.query == url.query[i := p])
      && ((forall j :: 0 <= j < |url.query| ==> url.query[j].key != "SAMLRequest") ==>
            r.value.value.query == url.query + [p])
  {
    var doc :- DecodeRequest(lib, encoded);
    var inj :- Rewrite(ns, creds, claims, doc);
    if inj.changed then
      var enc := RedirectCodec.EncodeRedirect(lib, inj.doc);
      var q := QueryString.Set(url.query, "SAMLRequest", enc);
      QueryString.GetAfterSet(url.query, "SAMLRequest", enc);
      QueryString.SetKeepsOthers(url.query, "SAMLRequest", enc);
      SetInPlace(url.query, enc);
      Ok(Some(Url(url.base, q)))
    else Ok(None)
  }

  /** Where `query["SAMLRequest"] = enc` leaves the parameter: at the first
      occurrence of the key, in place of a single occurrence, or last. */
  lemma SetInPlace(query: QueryString.Query, enc: string)
    ensures var p := QueryString.Parameter("SAMLRequest", enc);
      var q := QueryString.Set(query, "SAMLRequest", enc);
      && (forall i: nat :: QueryString.FirstOccursAt(query, "SAMLRequest", i) ==>
            q == query[..i] + [p] + QueryString.Without(query[i + 1..], "SAMLRequest"))
      && (forall i: nat :: QueryString.OccursOnlyAt(query, "SAMLRequest", i) ==> q == query[i := p])
      && ((forall j :: 0 <= j < |query| ==> query[j].key != "SAMLRequest") ==> q == query + [p])
  {
    forall i: nat | QueryString.FirstOccursAt(query, "SAMLRequest", i) {
      QueryString.SetAtFirst(query, "SAMLRequest", enc, i);
    }
    forall i: nat | QueryString.OccursOnlyAt(query, "SAMLRequest", i) {
      QueryString.SetSingle(query, "SAMLRequest", enc, i);
    }
    if forall j :: 0 <= j < |query| ==> query[j].key != "SAMLRequest" {
      QueryString.SetAbsent(query, "SAMLRequest", enc);
    }
  }

  /** The new `SAMLRequest` decodes to the rewritten request, when the
      libraries keep their laws and the parser reads back what the
      serializer writes. */
  lemma RewriteRoundTrip(lib: RedirectCodec.Libraries, ns: string, creds: seq<string>,
                         claims: Option<seq<string>>, url: Url, encoded: string)
    requires RedirectCodec.Lawful(lib)
    requires RewriteLocation(lib, ns, creds, claims, url, encoded).Ok?
    requires RewriteLocation(lib, ns, creds, claims, url, encoded).value.Some?
    requires var d := Rewrite(ns, creds, claims, DecodeRequest(lib, encoded).value).value.doc;
      lib.parse(lib.serialize(d)) == Some(d)
    ensures var u := RewriteLocation(lib, ns, creds, claims, url, encoded).value.value;
      DecodeRequest(lib, QueryString.Get(u.query, "SAMLRequest").value)
        == Ok(Rewrite(ns, creds, claims, DecodeRequest(lib, encoded).value).value.doc)
  {
    var d := Rewrite(ns, creds, claims, DecodeRequest(lib, encoded).value).value.doc;
    DecodeRequestRoundTrip(lib, d);
  }

  /** The handler body. */
  function EndRequest<S>(lib: RedirectCodec.Libraries, urls: UrlCodec, settings: Settings,
                         p: Provider<S>, s: S, cache: Cache, req: HttpRequest, resp: Response): (r: Handled<S>)
    ensures !Engages(resp) ==> r == Handled(Ok(resp), cache, s)
    ensures Engages(resp) && urls.parse(resp.redirectLocation.value).None? ==>
      r == Handled(Err(MalformedUrl), cache, s)
    ensures Engages(resp) && urls.parse(resp.redirectLocation.value).Some? ==>
      var url := urls.parse(resp.redirectLocation.value).value;
      IsNullOrBlank(QueryString.Get(url.query, "SAMLRequest")) ==> r == Handled(Ok(resp), cache, s)
    ensures r.response.Ok? ==> r.response.value.statusCode == resp.statusCode
    ensures r.response.Ok? && r.response.value != resp ==>
      Engages(resp) && exists u :: r.response.value.redirectLocation == Some(urls.format(u))
    ensures Engages(resp) && urls.parse(resp.redirectLocation.value).Some? ==>
      var url := urls.parse(resp.redirectLocation.value).value;
      var encoded := QueryString.Get(url.query, "SAMLRequest");
      !IsNullOrBlank(encoded) ==>
        && (GetRelyingPartyId(lib, req).Err? ==> r == Handled(Err(GetRelyingPartyId(lib, req).error), cache, s))
        && (GetRelyingPartyId(lib, req).Ok? ==>
              r == HandleFor(lib, urls, settings, p, s, cache, GetRelyingPartyId(lib, req).value, url, encoded.value, resp))
  {
    if !Engages(resp) then Handled(Ok(resp), cache, s)
    else match urls.parse(resp.redirectLocation.value)
      case None => Handled(Err(MalformedUrl), cache, s)
      case Some(url) =>
        var encoded := QueryString.Get(url.query, "SAMLRequest");
        if IsNullOrBlank(encoded) then Handled(Ok(resp), cache, s)
        else match GetRelyingPartyId(lib, req)
          case Err(e) => Handled(Err(e), cache, s)
          case Ok(rpId) => HandleFor(lib, urls, settings, p, s, cache, rpId, url, encoded.value, resp)
  }

  /** The handler once the relying party is known: credentials, then claims,
      then the rewrite of the location. */
  function HandleFor<S>(lib: RedirectCodec.Libraries, urls: UrlCodec, settings: Settings, p: Provider<S>, s: S,
                        cache: Cache, rpId: string, url: Url, encoded: string, resp: Response): (r: Handled<S>)
    ensures r.response.Ok? ==> r.response.value.statusCode == resp.statusCode
    ensures r.response.Ok? && r.response.value != resp ==>
      exists u :: r.response.value.redirectLocation == Some(urls.format(u))
    ensures var creds := CredentialsFor(cache, DefaultCredentials(settings.defaultCredentials), p, s, rpId);
      var claims := ClaimsFor(creds.cache, p, creds.state, rpId);
      && (creds.result.Err? ==> r == Handled(Err(creds.result.error), creds.cache, creds.state))
      && (creds.result.Ok? && claims.result.Err? ==> r == Handled(Err(claims.result.error), claims.cache, claims.state))
      && (creds.result.Ok? && claims.result.Ok? ==>
            && r.cache == claims.cache && r.state == claims.state
            && r.response == Respond(lib, urls, RequestedAttributesNamespace(settings.requestedAttributesNamespace),
                                     creds.result.value, claims.result.value, url, encoded, resp))
  {
    var creds := CredentialsFor(cache, DefaultCredentials(settings.defaultCredentials), p, s, rpId);
    if creds.result.Err? then Handled(Err(creds.result.error), creds.cache, creds.state)
    else
      var claims := ClaimsFor(creds.cache, p, creds.state, rpId);
      if claims.result.Err? then Handled(Err(claims.result.error), claims.cache, claims.state)
      else
        var ns := RequestedAttributesNamespace(settings.requestedAttributesNamespace);
        Handled(Respond(lib, urls, ns, creds.result.value, claims.result.value, url, encoded, resp),
                claims.cache, claims.state)
  }

  /** The response once the policy is known: the old one when the request is
      left alone, the new location when it was rewritten. */
  function Respond(lib: RedirectCodec.Libraries, urls: UrlCodec, ns: string, creds: seq<string>,
                   claims: Option<seq<string>>, url: Url, encoded: string, resp: Response): (r: Result<Response>)
    ensures r.Ok? <==> RewriteLocation(lib, ns, creds, claims, url, encoded).Ok?
    ensures r.Ok? ==> r.value.statusCode == resp.statusCode
    ensures r.Ok? && r.value != resp ==> exists u :: r.value.redirectLocation == Some(urls.format(u))
    ensures RewriteLocation(lib, ns, creds, claims, url, encoded) == Ok(None) ==> r == Ok(resp)
    ensures var w := RewriteLocation(lib, ns, creds, claims, url, encoded);
      w.Ok? && w.value.Some? ==> r == Ok(resp.(redirectLocation := Some(urls.format(w.value.value))))
  {
    match RewriteLocation(lib, ns, creds, claims, url, encoded)
    case Err(e) => Err(e)
    case Ok(None) => Ok(resp)
    case Ok(Some(u)) => Ok(resp.(redirectLocation := Some(urls.format(u))))
  }

  /** Running the rewrite again on its own output changes nothing when the
      request had no context of its own and no claims are required: the
      rewritten request already asks for exactly the configured credentials. */
  lemma RewriteSettles(lib: RedirectCodec.Libraries, ns: string, creds: seq<string>,
                       claims: Option<seq<string>>, url: Url, encoded: string)
    requires RedirectCodec.Lawful(lib)
    requires claims.None? || claims.value == []
    requires DecodeRequest(lib, encoded).Ok?
    requires ChildNamed(DecodeRequest(lib, encoded).value, RequestedAuthnContextName).None?
    requires RewriteLocation(lib, ns, creds, claims, url, encoded).Ok?
    requires RewriteLocation(lib, ns, creds, claims, url, encoded).value.Some?
    requires var d := Rewrite(ns, creds, claims, DecodeRequest(lib, encoded).value).value.doc;
      lib.parse(lib.serialize(d)) == Some(d)
    ensures var u := RewriteLocation(lib, ns, creds, claims, url, encoded).value.value;
      RewriteLocation(lib, ns, creds, claims, u, QueryString.Get(u.query, "SAMLRequest").value) == Ok(None)
  {
    var doc := DecodeRequest(lib, encoded).value;
    RewriteRoundTrip(lib, ns, creds, claims, url, encoded);
    CredentialsSettle(creds, doc);
  }

  /** Once a request has gone through the handler, the cache answers both
      lookups for its relying party: handling it again leaves the provider
      untouched and the cache as it was, whatever provider is installed. */
  lemma EndRequestMemoised<S>(lib: RedirectCodec.Libraries, urls: UrlCodec, settings: Settings,
                              p: Provider<S>, q: Provider<S>, s: S, t: S, cache: Cache,
                              req: HttpRequest, resp: Response)
    requires Engages(resp) && urls.parse(resp.redirectLocation.value).Some?
    requires !IsNullOrBlank(QueryString.Get(urls.parse(resp.redirectLocation.value).value.query, "SAMLRequest"))
    requires EndRequest(lib, urls, settings, p, s, cache, req, resp).response.Ok?
    ensures var first := EndRequest(lib, urls, settings, p, s, cache, req, resp);
      var second := EndRequest(lib, urls, settings, q, t, first.cache, req, resp);
      second == Handled(first.response, first.cache, t)
  {
    var url := urls.parse(resp.redirectLocation.value).value;
    var encoded := QueryString.Get(url.query, "SAMLRequest").value;
    var rpId := GetRelyingPartyId(lib, req).value;
    assert EndRequest(lib, urls, settings, p, s, cache, req, resp)
        == HandleFor(lib, urls, settings, p, s, cache, rpId, url, encoded, resp);
    var first := HandleFor(lib, urls, settings, p, s, cache, rpId, url, encoded, resp);
    assert EndRequest(lib, urls, settings, q, t, first.cache, req, resp)
        == HandleFor(lib, urls, settings, q, t, first.cache, rpId, url, encoded, resp);
    HandleForMemoised(lib, urls, settings, p, q, s, t, cache, rpId, url, encoded, resp);
  }

  /** A redirect the handler changed carries the rewrite of its own request:
      the configured namespace, the party's credentials and claims as the
      cache and provider give them, and a `SAMLRequest` that decodes to the
      rewritten request. */
  lemma EndRequestRedirects<S>(lib: RedirectCodec.Libraries, urls: UrlCodec, settings: Settings,
                               p: Provider<S>, s: S, cache: Cache, req: HttpRequest, resp: Response)
    requires Engages(resp) && urls.parse(resp.redirectLocation.value).Some?
    requires !IsNullOrBlank(QueryString.Get(urls.parse(resp.redirectLocation.value).value.query, "SAMLRequest"))
    requires GetRelyingPartyId(lib, req).Ok?
    requires EndRequest(lib, urls, settings, p, s, cache, req, resp).response.Ok?
    requires EndRequest(lib, urls, settings, p, s, cache, req, resp).response.value != resp
    ensures var url := urls.parse(resp.redirectLocation.value).value;
      var encoded := QueryString.Get(url.query, "SAMLRequest").value;
      var ns := RequestedAttributesNamespace(settings.requestedAttributesNamespace);
      var c := CredentialsFor(cache, DefaultCredentials(settings.defaultCredentials), p, s, GetRelyingPartyId(lib, req).value);
      var cl := ClaimsFor(c.cache, p, c.state, GetRelyingPartyId(lib, req).value);
      && c.result.Ok? && cl.result.Ok?
      && RewriteLocation(lib, ns, c.result.value, cl.result.value, url, encoded).Ok?
      && RewriteLocation(lib, ns, c.result.value, cl.result.value, url, encoded).value.Some?
      && var u := RewriteLocation(lib, ns, c.result.value, cl.result.value, url, encoded).value.value;
      && EndRequest(lib, urls, settings, p, s, cache, req, resp).response.value.redirectLocation == Some(urls.format(u))
      && var d := Rewrite(ns, c.result.value, cl.result.value, DecodeRequest(lib, encoded).value).value.doc;
      (RedirectCodec.Lawful(lib) && lib.parse(lib.serialize(d)) == Some(d) ==>
         DecodeRequest(lib, QueryString.Get(u.query, "SAMLRequest").value) == Ok(d))
  {
    var url := urls.parse(resp.redirectLocation.value).value;
    var encoded := QueryString.Get(url.query, "SAMLRequest").value;
    var ns := RequestedAttributesNamespace(settings.requestedAttributesNamespace);
    var rpId := GetRelyingPartyId(lib, req).value;
    var c := CredentialsFor(cache, DefaultCredentials(settings.defaultCredentials), p, s, rpId);
    var cl := ClaimsFor(c.cache, p, c.state, rpId);
    var w := RewriteLocation(lib, ns, c.result.value, cl.result.value, url, encoded);
    assert w.Ok? && w.value.Some?;
    var d := Rewrite(ns, c.result.value, cl.result.value, DecodeRequest(lib, encoded).value).value.doc;
    if RedirectCodec.Lawful(lib) && lib.parse(lib.serialize(d)) == Some(d) {
      RewriteRoundTrip(lib, ns, c.result.value, cl.result.value, url, encoded);
    }
  }

  /** The memoisation of the handler, once the relying party is known. */
  lemma HandleForMemoised<S>(lib: RedirectCodec.Libraries, urls: UrlCodec, settings: Settings,
                             p: Provider<S>, q: Provider<S>, s: S, t: S, cache: Cache,
                             rpId: string, url: Url, encoded: string, resp: Response)
    requires HandleFor(lib, urls, settings, p, s, cache, rpId, url, encoded, resp).response.Ok?
    ensures var first := HandleFor(lib, urls, settings, p, s, cache, rpId, url, encoded, resp);
      HandleFor(lib, urls, settings, q, t, first.cache, rpId, url, encoded, resp) == Handled(first.response, first.cache, t)
  {
    var ns := RequestedAttributesNamespace(settings.requestedAttributesNamespace);
    var defaults := DefaultCredentials(settings.defaultCredentials);
    var c := CredentialsFor(cache, defaults, p, s, rpId);
    var cl := ClaimsFor(c.cache, p, c.state, rpId);
    LookupsIndependent(c.cache, defaults, p, c.state, rpId, rpId);
    ClaimsMemoised(c.cache, p, q, c.state, t, rpId);
    var c2 := CredentialsFor(cl.cache, defaults, q, t, rpId);
    var cl2 := ClaimsFor(c2.cache, q, c2.state, rpId);
    assert c2 == Lookup(c.result, cl.cache, t);
    NullClaimsAsEmpty(lib, ns, c.result.value, cl.result.value, url, encoded);
    assert Respond(lib, urls, ns, c.result.value, cl2.result.value, url, encoded, resp)
        == Respond(lib, urls, ns, c.result.value, cl.result.value, url, encoded, resp);
  }

  /** A `null` claims answer and an empty list rewrite alike. */
  lemma NullClaimsAsEmpty(lib: RedirectCodec.Libraries, ns: string, creds: seq<string>,
                          claims: Option<seq<string>>, url: Url, encoded: string)
    ensures RewriteLocation(lib, ns, creds, Some(claims.GetOr([])), url, encoded)
         == RewriteLocation(lib, ns, creds, claims, url, encoded)
  {
    if DecodeRequest(lib, encoded).Ok? {
      var doc := DecodeRequest(lib, encoded).value;
      assert Rewrite(ns, creds, Some(claims.GetOr([])), doc) == Rewrite(ns, creds, claims, doc);
    }
  }

  /** With the built-in provider, a relying party's credentials on a cache
      miss come from its notes: the list before the first backslash, or the
      defaults when that list is a single blank entry; a missing trust or
      blank notes fail the lookup and leave the cache as it was. */
  lemma BuiltInProviderCredentials(cache: Cache, defaults: seq<string>, store: RelyingPartySettings.TrustStore,
                                   notes: RelyingPartySettings.NotesCache, rpId: string)
    requires CredentialsKey(rpId) !in cache
    ensures var r := CredentialsFor(cache, defaults, RelyingPartySettings.NotesProvider(store), notes, rpId);
      && (r.result.Err? <==> rpId !in notes && (store(rpId).None? || IsBlank(store(rpId).value)))
      && (r.result.Err? ==> r.result.error == KeyNotFound && r.cache == cache)
      && (r.result.Ok? ==>
            var creds := RelyingPartySettings.ParseCredentials(RelyingPartySettings.GetNotes(notes, store, rpId).result.value);
            r.result.value == if |creds| == 1 && IsBlank(creds[0]) then defaults else creds)
      && (r.result.Ok? ==>
            var text := if rpId in notes then notes[rpId] else store(rpId).value;
            var creds := RelyingPartySettings.ParseCredentials(text);
            r.result.value == if |creds| == 1 && IsBlank(creds[0]) then defaults else creds)
  {
    RelyingPartySettings.CredentialsNeverNull(notes, store, rpId);
  }
}

=== FILE: policy_cache.dfy ===
/** The module's per-relying-party lookups of required credentials and
    claims (`GetRequiredCredentialsForRelyingParty`,
    `GetRequiredClaimsForRelyingParty`) and the default credentials read from
    configuration. The shared ASP.NET cache is a map threaded through the
    calls; credentials are kept under `<id>_Credentials`, claims under
    `<id>_Claims`. */
module PolicyCache {
  import opened Failures
  import opened Text
  import opened SettingsProvider

  type Cache = map<string, seq<string>>

  function CredentialsKey(rpId: string): string {
    rpId + "_Credentials"
  }

  function ClaimsKey(rpId: string): string {
    rpId + "_Claims"
  }

  /** The credentials key of one party is never the claims key of any party,
      and distinct parties have distinct keys. */
  lemma KeysDistinct(a: string, b: string)
    ensures CredentialsKey(a) != ClaimsKey(b)
    ensures a != b ==> CredentialsKey(a) != CredentialsKey(b) && ClaimsKey(a) != ClaimsKey(b)
  {
    var (x, y) := (CredentialsKey(a), ClaimsKey(b));
    assert x[|x| - 2] == 'l' && y[|y| - 2] == 'm';
    assert CredentialsKey(a)[..|a|] == a && CredentialsKey(b)[..|b|] == b;
    assert ClaimsKey(a)[..|a|] == a && ClaimsKey(b)[..|b|] == b;
  }

  /** The constructor's default credentials: none when the setting is missing
      or blank, otherwise its comma-separated parts. */
  function DefaultCredentials(setting: Option<string>): (r: seq<string>)
    ensures r == [] <==> IsNullOrBlank(setting)
    ensures r != [] ==> Join(r, ',') == setting.value
    ensures forall i :: 0 <= i < |r| ==> ',' !in r[i]
  {
    if IsNullOrBlank(setting) then [] else Split(setting.value, ',')
  }

  /** A provider answer the module replaces by the defaults: null, empty, or
      a single blank entry. */
  predicate NeedsDefault(creds: Option<seq<string>>) {
    creds.None? || |creds.value| == 0 || (|creds.value| == 1 && IsBlank(creds.value[0]))
  }

  /** What a lookup returns, with the shared cache and the provider's state after it. */
  datatype Lookup<T, S> = Lookup(result: Result<T>, cache: Cache, state: S)

  /** Only `key` may have changed between the two caches. */
  ghost predicate OnlyKeyChanged(before: Cache, after: Cache, key: string) {
    forall k :: k != key ==> (k in after <==> k in before) && (k in before ==> after[k] == before[k])
  }

  /** `GetRequiredCredentialsForRelyingParty`. */
  function CredentialsFor<S>(cache: Cache, defaults: seq<string>, p: Provider<S>, s: S, rpId: string)
    : (r: Lookup<seq<string>, S>)
    ensures CredentialsKey(rpId) in cache ==> r == Lookup(Ok(cache[CredentialsKey(rpId)]), cache, s)
    ensures CredentialsKey(rpId) !in cache ==> r.state == p.requiredCredentials(s, rpId).state
    ensures r.result.Ok? ==> CredentialsKey(rpId) in r.cache && r.cache[CredentialsKey(rpId)] == r.result.value
    ensures r.result.Err? ==> r.cache == cache
    ensures OnlyKeyChanged(cache, r.cache, CredentialsKey(rpId))
    ensures CredentialsKey(rpId) !in cache ==>
      r.result.Ok? == p.requiredCredentials(s, rpId).result.Ok?
    ensures CredentialsKey(rpId) !in cache && r.result.Err? ==>
      r.result.error == p.requiredCredentials(s, rpId).result.error
    ensures CredentialsKey(rpId) !in cache && r.result.Ok? ==>
      var fetched := p.requiredCredentials(s, rpId).result.value;
      r.result.value == if NeedsDefault(fetched) then defaults else fetched.value
  {
    var key := CredentialsKey(rpId);
    if key in cache then Lookup(Ok(cache[key]), cache, s)
    else
      var f := p.requiredCredentials(s, rpId);
      match f.result
      case Err(e) => Lookup(Err(e), cache, f.state)
      case Ok(fetched) =>
        var creds := if NeedsDefault(fetched) then defaults else fetched.value;
        Lookup(Ok(creds), cache[key := creds], f.state)
  }

  /** `GetRequiredClaimsForRelyingParty`: on a miss the provider's answer is
      returned as it is, possibly null, while `answer ?? []` is cached. */
  function ClaimsFor<S>(cache: Cache, p: Provider<S>, s: S, rpId: string)
    : (r: Lookup<Option<seq<string>>, S>)
    ensures ClaimsKey(rpId) in cache ==> r == Lookup(Ok(Some(cache[ClaimsKey(rpId)])), cache, s)
    ensures ClaimsKey(rpId) !in cache ==> r.state == p.requiredClaims(s, rpId).state
    ensures ClaimsKey(rpId) !in cache ==> r.result == p.requiredClaims(s, rpId).result
    ensures r.result.Ok? ==> ClaimsKey(rpId) in r.cache && r.cache[ClaimsKey(rpId)] == r.result.value.GetOr([])
    ensures r.result.Err? ==> r.cache == cache
    ensures OnlyKeyChanged(cache, r.cache, ClaimsKey(rpId))
  {
    var key := ClaimsKey(rpId);
    if key in cache then Lookup(Ok(Some(cache[key])), cache, s)
    else
      var f := p.requiredClaims(s, rpId);
      match f.result
      case Err(e) => Lookup(Err(e), cache, f.state)
      case Ok(fetched) => Lookup(Ok(fetched), cache[key := fetched.GetOr([])], f.state)
  }

  /** A second credentials lookup answers from the cache: the same list, the
      cache and the provider's state untouched, whatever the provider would say. */
  lemma CredentialsMemoised<S>(cache: Cache, defaults: seq<string>, p: Provider<S>, q: Provider<S>, s: S, t: S, rpId: string)
    requires CredentialsFor(cache, defaults, p, s, rpId).result.Ok?
    ensures var first := CredentialsFor(cache, defaults, p, s, rpId);
      CredentialsFor(first.cache, defaults, q, t, rpId) == Lookup(first.result, first.cache, t)
  {
  }

  /** A second claims lookup answers from the cache. A null answer the first
      time becomes an empty list the second time; both mean "no claims". */
  lemma ClaimsMemoised<S>(cache: Cache, p: Provider<S>, q: Provider<S>, s: S, t: S, rpId: string)
    requires ClaimsFor(cache, p, s, rpId).result.Ok?
    ensures var first := ClaimsFor(cache, p, s, rpId);
      ClaimsFor(first.cache, q, t, rpId) == Lookup(Ok(Some(first.result.value.GetOr([]))), first.cache, t)
  {
  }

  /** The claims lookup never disturbs a cached credentials list, and the
      credentials lookup never disturbs cached claims. */
  lemma LookupsIndependent<S>(cache: Cache, defaults: seq<string>, p: Provider<S>, s: S, rpId: string, other: string)
    ensures var r := ClaimsFor(cache, p, s, rpId);
      CredentialsKey(other) in cache ==> CredentialsKey(other) in r.cache && r.cache[CredentialsKey(other)] == cache[CredentialsKey(other)]
    ensures var r := CredentialsFor(cache, defaults, p, s, rpId);
      ClaimsKey(other) in cache ==> ClaimsKey(other) in r.cache && r.cache[ClaimsKey(other)] == cache[ClaimsKey(other)]
  {
    KeysDistinct(other, rpId);
    KeysDistinct(rpId, other);
  }
}

=== FILE: provider.dfy ===
/** `IRelyingPartySettingsProvider`: the two lookups the module asks of a
    settings provider. A provider may keep state of its own (the built-in one
    memoises its notes), so each lookup takes and returns that state. */
module SettingsProvider {
  import opened Failures

  /** What a lookup returns, `None` standing for `null`, with the provider's
      state afterwards. */
  datatype Fetched<T, S> = Fetched(result: Result<T>, state: S)

  datatype Provider<!S> = Provider(
    requiredCredentials: (S, string) -> Fetched<Option<seq<string>>, S>,
    requiredClaims: (S, string) -> Fetched<Option<seq<string>>, S>)
}

=== FILE: query.dfy ===
/** A parsed query string, as `HttpUtility.ParseQueryString` returns it: the
    decoded `key=value` pairs in their order in the URL. Reading and writing a
    key follow `NameValueCollection.Get` and its indexer's setter. */
module QueryString {
  import opened Failures
  import opened Text

  datatype Parameter = Parameter(key: string, value: string)

  type Query = seq<Parameter>

  /** The values given for `k`, in order. */
  function Values(q: Query, k: string): (r: seq<string>)
    ensures |r| <= |q|
    ensures forall v :: v in r <==> exists i :: 0 <= i < |q| && q[i] == Parameter(k, v)
  {
    if |q| == 0 then []
    else (if q[0].key == k then [q[0].value] else []) + Values(q[1..], k)
  }

  /** `NameValueCollection.Get`: `null` when the key is absent, otherwise its
      values joined with commas. */
  function Get(q: Query, k: string): (r: Option<string>)
    ensures r.None? <==> forall i :: 0 <= i < |q| ==> q[i].key != k
    ensures r.Some? ==> r.value == Join(Values(q, k), ',')
    ensures forall i: nat :: OccursOnlyAt(q, k, i) ==> r == Some(q[i].value)
  {
    var vs := Values(q, k);
    assert forall i: nat :: OccursOnlyAt(q, k, i) ==> vs == [q[i].value] by {
      forall i: nat | OccursOnlyAt(q, k, i) {
        ValuesSingle(q, k, i);
      }
    }
    if |vs| == 0 then
      assert forall i :: 0 <= i < |q| ==> q[i].key != k by {
        NoValuesNoKey(q, k);
      }
      None
    else
      assert exists i :: 0 <= i < |q| && q[i].key == k by {
        SomeValueSomeKey(q, k);
      }
      Some(Join(vs, ','))
  }

  /** The key `k` occurs in `q` once, at position `i`. */
  predicate OccursOnlyAt(q: Query, k: string, i: nat) {
    i < |q| && q[i].key == k && forall j :: 0 <= j < |q| && j != i ==> q[j].key != k
  }

  /** A key that occurs once has that one value. */
  lemma {:induction false} ValuesSingle(q: Query, k: string, i: nat)
    requires OccursOnlyAt(q, k, i)
    ensures Values(q, k) == [q[i].value]
  {
    if i == 0 {
      NoValuesNoKeyConverse(q[1..], k);
    } else {
      assert forall j :: 0 <= j < |q[1..]| && j != i - 1 ==> q[1..][j].key != k by {
        forall j | 0 <= j < |q[1..]| && j != i - 1 ensures q[1..][j].key != k {
          assert q[1..][j] == q[j + 1];
        }
      }
      assert OccursOnlyAt(q[1..], k, i - 1);
      ValuesSingle(q[1..], k, i - 1);
    }
  }

  /** A key that never occurs has no values. */
  lemma {:induction false} NoValuesNoKeyConverse(q: Query, k: string)
    requires forall j :: 0 <= j < |q| ==> q[j].key != k
    ensures Values(q, k) == []
  {
    if |q| > 0 {
      assert forall j :: 0 <= j < |q[1..]| ==> q[1..][j].key != k by {
        forall j | 0 <= j < |q[1..]| ensures q[1..][j].key != k {
          assert q[1..][j] == q[j + 1];
        }
      }
      NoValuesNoKeyConverse(q[1..], k);
    }
  }

  lemma {:induction false} NoValuesNoKey(q: Query, k: string)
    requires Values(q, k) == []
    ensures forall i :: 0 <= i < |q| ==> q[i].key != k
  {
    if |q| > 0 {
      NoValuesNoKey(q[1..], k);
      assert forall i :: 1 <= i < |q| ==> q[i] == q[1..][i - 1];
    }
  }

  lemma {:induction false} SomeValueSomeKey(q: Query, k: string)
    requires Values(q, k) != []
    ensures exists i :: 0 <= i < |q| && q[i].key == k
  {
    if q[0].key != k {
      SomeValueSomeKey(q[1..], k);
      var i :| 0 <= i < |q[1..]| && q[1..][i].key == k;
      assert q[i + 1] == q[1..][i];
    }
  }

  /** The parameters whose key is not `k`, in order. */
  function Without(q: Query, k: string): (r: Query)
    ensures forall p :: p in r <==> p in q && p.key != k
  {
    if |q| == 0 then []
    else (if q[0].key == k then [] else [q[0]]) + Without(q[1..], k)
  }

  /** The indexer's setter `query[k] = v`: the first parameter named `k` takes
      the single value `v` and later ones are dropped; an absent key is added
      at the end. */
  function Set(q: Query, k: string, v: string): (r: Query)
  {
    if |q| == 0 then [Parameter(k, v)]
    else if q[0].key == k then [Parameter(k, v)] + Without(q[1..], k)
    else [q[0]] + Set(q[1..], k, v)
  }

  lemma ValuesCons(p: Parameter, q: Query, k: string)
    ensures Values([p] + q, k) == (if p.key == k then [p.value] else []) + Values(q, k)
  {
    assert ([p] + q)[1..] == q;
  }

  lemma WithoutCons(p: Parameter, q: Query, k: string)
    ensures Without([p] + q, k) == (if p.key == k then [] else [p]) + Without(q, k)
  {
    assert ([p] + q)[1..] == q;
  }

  lemma {:induction false} ValuesWithout(q: Query, k: string)
    ensures Values(Without(q, k), k) == []
  {
    if |q| > 0 {
      ValuesWithout(q[1..], k);
      if q[0].key != k {
        ValuesCons(q[0], Without(q[1..], k), k);
      } else {
        assert Without(q, k) == Without(q[1..], k);
      }
    }
  }

  lemma {:induction false} WithoutWithout(q: Query, k: string)
    ensures Without(Without(q, k), k) == Without(q, k)
  {
    if |q| > 0 {
      WithoutWithout(q[1..], k);
      if q[0].key != k {
        WithoutCons(q[0], Without(q[1..], k), k);
      } else {
        assert Without(q, k) == Without(q[1..], k);
      }
    }
  }

  /** After `query[k] = v`, reading `k` gives exactly `v`. */
  lemma {:induction false} GetAfterSet(q: Query, k: string, v: string)
    ensures Values(Set(q, k, v), k) == [v]
    ensures Get(Set(q, k, v), k) == Some(v)
  {
    if |q| > 0 && q[0].key == k {
      ValuesWithout(q[1..], k);
    } else if |q| > 0 {
      GetAfterSet(q[1..], k, v);
    }
  }

  /** `query[k] = v` leaves every other parameter as it was, in its order. */
  lemma {:induction false} SetKeepsOthers(q: Query, k: string, v: string)
    ensures Without(Set(q, k, v), k) == Without(q, k)
  {
    if |q| > 0 && q[0].key == k {
      WithoutWithout(q[1..], k);
    } else if |q| > 0 {
      SetKeepsOthers(q[1..], k, v);
    }
  }

  /** When `k` occurs once, `query[k] = v` replaces that value in place. */
  lemma {:induction false} SetSingle(q: Query, k: string, v: string, i: nat)
    requires i < |q| && q[i].key == k
    requires forall j :: 0 <= j < |q| && j != i ==> q[j].key != k
    ensures Set(q, k, v) == q[i := Parameter(k, v)]
  {
    if i == 0 {
      WithoutAbsent(q[1..], k);
    } else {
      SetSingle(q[1..], k, v, i - 1);
      assert q[1..][i - 1 := Parameter(k, v)] == q[i := Parameter(k, v)][1..];
    }
  }

  /** `query[k] = v` puts the new value where `k` first occurs and drops the
      later occurrences; everything else keeps its place. */
  lemma SetAtFirst(q: Query, k: string, v: string, i: nat)
    requires FirstOccursAt(q, k, i)
    ensures Set(q, k, v) == q[..i] + [Parameter(k, v)] + Without(q[i + 1..], k)
  {
    assert q == q[..i] + q[i..];
    SetAfterPrefix(q[..i], q[i..], k, v);
    assert q[i..][1..] == q[i + 1..];
  }

  /** Parameters of other keys in front of the query stay in front. */
  lemma {:induction false} SetAfterPrefix(a: Query, t: Query, k: string, v: string)
    requires forall j :: 0 <= j < |a| ==> a[j].key != k
    ensures Set(a + t, k, v) == a + Set(t, k, v)
    decreases |a|
  {
    if |a| == 0 {
      assert a + t == t;
    } else {
      assert (a + t)[1..] == a[1..] + t;
      SetAfterPrefix(a[1..], t, k, v);
      assert [a[0]] + (a[1..] + Set(t, k, v)) == a + Set(t, k, v);
    }
  }

  /** The key `k` occurs in `q` at position `i` and nowhere before it. */
  predicate FirstOccursAt(q: Query, k: string, i: nat) {
    i < |q| && q[i].key == k && forall j :: 0 <= j < i ==> q[j].key != k
  }

  /** `query[k] = v` on a query without `k` appends the parameter. */
  lemma {:induction false} SetAbsent(q: Query, k: string, v: string)
    requires forall j :: 0 <= j < |q| ==> q[j].key != k
    ensures Set(q, k, v) == q + [Parameter(k, v)]
  {
    if |q| > 0 {
      assert forall j :: 0 <= j < |q[1..]| ==> q[1..][j].key != k by {
        forall j | 0 <= j < |q[1..]| ensures q[1..][j].key != k {
          assert q[1..][j] == q[j + 1];
        }
      }
      SetAbsent(q[1..], k, v);
      assert [q[0]] + (q[1..] + [Parameter(k, v)]) == q + [Parameter(k, v)];
    }
  }

  lemma {:induction false} WithoutAbsent(q: Query, k: string)
    requires forall j :: 0 <= j < |q| ==> q[j].key != k
    ensures Without(q, k) == q
  {
    if |q| > 0 {
      WithoutAbsent(q[1..], k);
    }
  }
}

=== FILE: resolver.dfy ===
/** `GetRelyingPartyId` and its three sources: the WS-Federation `wtrealm`
    parameter, a redirect-binding `SAMLRequest` in the query string, and a
    POST-binding `SAMLRequest` form field. */
module RelyingPartyResolver {
  import opened Failures
  import opened Text
  import opened Xml
  import QueryString
  import RedirectCodec

  /** The incoming request: its parsed query string and its form fields. */
  datatype HttpRequest = HttpRequest(query: QueryString.Query, form: QueryString.Query)

  const AudienceName := QName("Audience", "urn:oasis:names:tc:SAML:2.0:assertion")
  const IssuerName := QName("Issuer", "urn:oasis:names:tc:SAML:2.0:assertion")

  /** Every element of the document, the root first, in document order. */
  function DocumentElements(doc: Element): seq<Element> {
    [doc] + Descendants(doc)
  }

  /** The identifier a parsed request names: the text of its first
      `Audience`, else of its first `Issuer`, else none. */
  function IdFromDocument(doc: Element): (r: Option<string>)
    ensures FirstNamed(DocumentElements(doc), AudienceName).Some? ==>
      r == Some(InnerText(FirstNamed(DocumentElements(doc), AudienceName).value))
    ensures FirstNamed(DocumentElements(doc), AudienceName).None? ==>
      r == match FirstNamed(DocumentElements(doc), IssuerName)
           case None => None
           case Some(i) => Some(InnerText(i))
  {
    NamedHead(DocumentElements(doc), AudienceName);
    NamedHead(DocumentElements(doc), IssuerName);
    var audiences := DocumentElementsByTagName(doc, AudienceName);
    if |audiences| > 0 then Some(InnerText(audiences[0]))
    else
      var issuers := DocumentElementsByTagName(doc, IssuerName);
      if |issuers| > 0 then Some(InnerText(issuers[0])) else None
  }

  /** `GetRelyingPartyIdFromDecodedSamlRequest`: text that does not parse is
      a malformed message. */
  function IdFromDecoded(lib: RedirectCodec.Libraries, text: string): (r: Result<Option<string>>)
    ensures r.Err? <==> lib.parse(text).None?
    ensures r.Err? ==> r.error == MalformedMessage
    ensures r.Ok? ==> r.value == IdFromDocument(lib.parse(text).value)
  {
    var doc :- (match lib.parse(text) case None => Err(MalformedMessage) case Some(d) => Ok(d));
    Ok(IdFromDocument(doc))
  }

  /** `GetRelyingPartyIdIfWSFederation`: a present `wtrealm` counts even when
      it is empty. */
  function IdIfWsFederation(req: HttpRequest): (r: Option<string>)
    ensures r.None? <==> forall i :: 0 <= i < |req.query| ==> req.query[i].key != "wtrealm"
    ensures r.Some? ==> r.value == Join(QueryString.Values(req.query, "wtrealm"), ',')
    ensures forall i: nat :: QueryString.OccursOnlyAt(req.query, "wtrealm", i) ==> r == Some(req.query[i].value)
  {
    QueryString.Get(req.query, "wtrealm")
  }

  /** `GetRelyingPartyIdIfSamlRedirect`: a blank or missing `SAMLRequest`
      gives no identifier; otherwise it is decoded with inflate. */
  function IdIfSamlRedirect(lib: RedirectCodec.Libraries, req: HttpRequest): (r: Result<Option<string>>)
    ensures IsNullOrBlank(QueryString.Get(req.query, "SAMLRequest")) ==> r == Ok(None)
    ensures !IsNullOrBlank(QueryString.Get(req.query, "SAMLRequest")) ==>
      var decoded := RedirectCodec.DecodeRedirect(lib, QueryString.Get(req.query, "SAMLRequest").value);
      r == if decoded.Err? then Err(decoded.error) else IdFromDecoded(lib, decoded.value)
  {
    var encoded := QueryString.Get(req.query, "SAMLRequest");
    if IsNullOrBlank(encoded) then Ok(None)
    else
      var text :- RedirectCodec.DecodeRedirect(lib, encoded.value);
      IdFromDecoded(lib, text)
  }

  /** `GetRelyingPartyIdIfSamlPost`: the same for the form field, decoded
      without inflate. */
  function IdIfSamlPost(lib: RedirectCodec.Libraries, req: HttpRequest): (r: Result<Option<string>>)
    ensures IsNullOrBlank(QueryString.Get(req.form, "SAMLRequest")) ==> r == Ok(None)
    ensures !IsNullOrBlank(QueryString.Get(req.form, "SAMLRequest")) ==>
      var decoded := RedirectCodec.DecodePost(lib, QueryString.Get(req.form, "SAMLRequest").value);
      r == if decoded.Err? then Err(decoded.error) else IdFromDecoded(lib, decoded.value)
  {
    var encoded := QueryString.Get(req.form, "SAMLRequest");
    if IsNullOrBlank(encoded) then Ok(None)
    else
      var text :- RedirectCodec.DecodePost(lib, encoded.value);
      IdFromDecoded(lib, text)
  }

  /** `GetRelyingPartyId`: the first source that names an identifier wins;
      a failure while decoding a source ends the search; no identifier at
      all is an unsupported request. */
  function GetRelyingPartyId(lib: RedirectCodec.Libraries, req: HttpRequest): (r: Result<string>)
    ensures IdIfWsFederation(req).Some? ==> r == Ok(IdIfWsFederation(req).value)
    ensures IdIfWsFederation(req).None? && IdIfSamlRedirect(lib, req).Err? ==>
      r == Err(IdIfSamlRedirect(lib, req).error)
    ensures IdIfWsFederation(req).None? && IdIfSamlRedirect(lib, req).Ok? && IdIfSamlRedirect(lib, req).value.Some? ==>
      r == Ok(IdIfSamlRedirect(lib, req).value.value)
    ensures IdIfWsFederation(req).None? && IdIfSamlRedirect(lib, req) == Ok(None) ==>
      r == match IdIfSamlPost(lib, req)
           case Err(e) => Err(e)
           case Ok(None) => Err(UnsupportedRequestShape)
           case Ok(Some(id)) => Ok(id)
    ensures r.Ok? ==>
      || IdIfWsFederation(req) == Some(r.value)
      || IdIfSamlRedirect(lib, req) == Ok(Some(r.value))
      || IdIfSamlPost(lib, req) == Ok(Some(r.value))
  {
    match IdIfWsFederation(req)
    case Some(id) => Ok(id)
    case None =>
      var fromRedirect :- IdIfSamlRedirect(lib, req);
      match fromRedirect
      case Some(id) => Ok(id)
      case None =>
        var fromPost :- IdIfSamlPost(lib, req);
        match fromPost
        case Some(id) => Ok(id)
        case None => Err(UnsupportedRequestShape)
  }

  /** A WS-Federation request names its relying party in `wtrealm`: one such
      parameter decides the identifier, whatever `SAMLRequest` and the form
      hold, even when they could not be decoded. */
  lemma WsFederationWins(lib: RedirectCodec.Libraries, req: HttpRequest, i: nat)
    requires QueryString.OccursOnlyAt(req.query, "wtrealm", i)
    ensures GetRelyingPartyId(lib, req) == Ok(req.query[i].value)
  {
  }

  /** A request that carries none of the three parameters is refused. */
  lemma NoSourceIsUnsupported(lib: RedirectCodec.Libraries, req: HttpRequest)
    requires forall i :: 0 <= i < |req.query| ==> req.query[i].key != "wtrealm" && req.query[i].key != "SAMLRequest"
    requires forall i :: 0 <= i < |req.form| ==> req.form[i].key != "SAMLRequest"
    ensures GetRelyingPartyId(lib, req) == Err(UnsupportedRequestShape)
  {
  }

  /** A redirect-binding request built from a document that names an
      audience resolves to that audience, whatever the form holds, provided
      no `wtrealm` is present and the parser reads back what the serializer
      writes. */
  lemma RedirectRoundTrip(lib: RedirectCodec.Libraries, req: HttpRequest, doc: Element)
    requires RedirectCodec.Lawful(lib) && lib.parse(lib.serialize(doc)) == Some(doc)
    requires forall i :: 0 <= i < |req.query| ==> req.query[i].key != "wtrealm"
    requires QueryString.Get(req.query, "SAMLRequest") == Some(RedirectCodec.EncodeRedirect(lib, doc))
    requires !IsBlank(RedirectCodec.EncodeRedirect(lib, doc))
    requires IdFromDocument(doc).Some?
    ensures GetRelyingPartyId(lib, req) == Ok(IdFromDocument(doc).value)
  {
    RedirectCodec.RoundTrip(lib, doc);
  }
}

=== FILE: settings.dfy ===
/** The built-in settings provider (`RelyingPartySettingsProvider`): a relying
    party's required credentials and claims are kept in the free-text notes of
    its trust, written `creds,creds\claims,claims`. Notes are fetched once per
    identifier and kept. */
module RelyingPartySettings {
  import opened Failures
  import opened Text
  import opened SettingsProvider

  /** The provider's dictionary from relying-party identifier to notes. */
  type NotesCache = map<string, string>

  /** The trust-store query: the notes of the first relying-party trust with
      that identifier, `None` when there is no such trust or its notes are null. */
  type TrustStore = string -> Option<string>

  /** Only non-blank notes are ever stored. */
  ghost predicate NonBlankNotes(notes: NotesCache) {
    forall id :: id in notes ==> !IsBlank(notes[id])
  }

  /** `GetNotes`: the stored notes, or else the trust store's when they are
      not blank (and then stored); `notes[rpId]` throws when nothing is stored. */
  function GetNotes(notes: NotesCache, store: TrustStore, rpId: string): (r: Fetched<string, NotesCache>)
    ensures r.result.Ok? ==> rpId in r.state && r.state[rpId] == r.result.value
    ensures rpId !in notes && r.result.Ok? ==> store(rpId) == Some(r.result.value)
    ensures r.result.Err? ==> r.result.error == KeyNotFound && r.state == notes
    ensures r.result.Err? <==> rpId !in notes && (store(rpId).None? || IsBlank(store(rpId).value))
    ensures r.state.Keys == notes.Keys + (if r.result.Ok? then {rpId} else {})
    ensures forall id :: id in notes ==> r.state[id] == notes[id]
    ensures NonBlankNotes(notes) ==> NonBlankNotes(r.state)
  {
    var notes' :=
      if rpId !in notes && store(rpId).Some? && !IsBlank(store(rpId).value)
      then notes[rpId := store(rpId).value]
      else notes;
    if rpId in notes' then Fetched(Ok(notes'[rpId]), notes')
    else Fetched(Err(KeyNotFound), notes')
  }

  /** Once notes are stored for an identifier, the trust store is not asked
      again: any store gives the stored notes and leaves the cache as it was. */
  lemma NotesMemoised(notes: NotesCache, store1: TrustStore, store2: TrustStore, rpId: string)
    requires rpId in notes
    ensures GetNotes(notes, store1, rpId) == GetNotes(notes, store2, rpId) == Fetched(Ok(notes[rpId]), notes)
  {
  }

  /** A second lookup of the same identifier finds what the first one stored. */
  lemma {:induction false} NotesSecondLookup(notes: NotesCache, store: TrustStore, other: TrustStore, rpId: string)
    requires GetNotes(notes, store, rpId).result.Ok?
    ensures var first := GetNotes(notes, store, rpId);
      GetNotes(first.state, other, rpId) == Fetched(first.result, first.state)
  {
    var first := GetNotes(notes, store, rpId);
    NotesMemoised(first.state, store, other, rpId);
  }

  /** `GetRequiredCredentials` on notes: the comma-separated list before the first backslash. */
  function ParseCredentials(notes: string): (r: seq<string>)
    ensures |r| >= 1
    ensures forall i :: 0 <= i < |r| ==> ',' !in r[i] && '\\' !in r[i]
    ensures Join(r, ',') == Split(notes, '\\')[0]
  {
    var first := Split(notes, '\\')[0];
    var r := Split(first, ',');
    assert forall i :: 0 <= i < |r| ==> '\\' !in r[i] by {
      forall i | 0 <= i < |r| ensures '\\' !in r[i] {
        SplitPartsFromText(first, ',', i);
      }
    }
    r
  }

  /** `GetRequiredClaims` on notes: the comma-separated list after the first
      backslash, up to the next; `null` when there is no backslash or that
      segment is blank. */
  function ParseClaims(notes: string): (r: Option<seq<string>>)
    ensures r.None? <==> '\\' !in notes || IsBlank(Split(notes, '\\')[1])
    ensures r.Some? ==> |Split(notes, '\\')| > 1 && |r.value| >= 1 && Join(r.value, ',') == Split(notes, '\\')[1]
    ensures r.Some? ==> forall i :: 0 <= i < |r.value| ==> ',' !in r.value[i] && '\\' !in r.value[i]
  {
    var parts := Split(notes, '\\');
    SplitCount(notes, '\\');
    if |parts| > 1 && !IsBlank(parts[1]) then
      var r := Split(parts[1], ',');
      assert forall i :: 0 <= i < |r| ==> '\\' !in r[i] by {
        forall i | 0 <= i < |r| ensures '\\' !in r[i] {
          SplitPartsFromText(parts[1], ',', i);
        }
      }
      Some(r)
    else None
  }

  /** A part of a split holds only characters of the text. */
  lemma SplitPartsFromText(s: string, sep: char, i: nat)
    requires i < |Split(s, sep)|
    ensures forall c :: c in Split(s, sep)[i] ==> c in s
  {
    var parts := Split(s, sep);
    JoinContainsParts(parts, sep, i);
  }

  lemma {:induction false} JoinContainsParts(parts: seq<string>, sep: char, i: nat)
    requires i < |parts|
    ensures forall c :: c in parts[i] ==> c in Join(parts, sep)
    decreases |parts|
  {
    if |parts| > 1 {
      JoinCons(parts[0], parts[1..], sep);
      assert parts == [parts[0]] + parts[1..];
      if i > 0 {
        JoinContainsParts(parts[1..], sep, i - 1);
      }
    }
  }

  /** A text splits into more than one part exactly when it holds the separator. */
  lemma SplitCount(s: string, sep: char)
    ensures |Split(s, sep)| > 1 <==> sep in s
  {
    if sep !in s {
      SplitNoSeparator(s, sep);
    } else {
      assert Join(Split(s, sep), sep) == s;
    }
  }

  /** Credentials are the list before the first backslash, whatever follows it. */
  lemma CredentialsBeforeFirstBackslash(a: string, rest: string)
    requires '\\' !in a
    ensures ParseCredentials(a) == Split(a, ',')
    ensures ParseCredentials(a + "\\" + rest) == Split(a, ',')
  {
    SplitNoSeparator(a, '\\');
    SplitAtFirst(a, rest, '\\');
  }

  /** Claims are the list in the second backslash segment; later segments
      never matter. */
  lemma ClaimsInSecondSegment(a: string, b: string, rest: string)
    requires '\\' !in a && '\\' !in b
    ensures ParseClaims(a) == None
    ensures ParseClaims(a + "\\" + b) == if IsBlank(b) then None else Some(Split(b, ','))
    ensures ParseClaims(a + "\\" + b + "\\" + rest) == ParseClaims(a + "\\" + b)
  {
    SplitNoSeparator(a, '\\');
    ClaimsAfterFirstBackslash(a, b);
    ClaimsBeforeSecondBackslash(a, b, rest);
  }

  /** With one backslash, the claims are the text after it. */
  lemma ClaimsAfterFirstBackslash(a: string, b: string)
    requires '\\' !in a && '\\' !in b
    ensures ParseClaims(a + "\\" + b) == if IsBlank(b) then None else Some(Split(b, ','))
  {
    SplitNoSeparator(b, '\\');
    SplitAtFirst(a, b, '\\');
    ClaimsFromSecondPart(a + "\\" + b, b);
  }

  /** With two, the claims are the text between them. */
  lemma ClaimsBeforeSecondBackslash(a: string, b: string, rest: string)
    requires '\\' !in a && '\\' !in b
    ensures ParseClaims(a + "\\" + b + "\\" + rest) == if IsBlank(b) then None else Some(Split(b, ','))
  {
    assert a + "\\" + b + "\\" + rest == a + "\\" + (b + "\\" + rest);
    SplitAtFirst(a, b + "\\" + rest, '\\');
    SplitAtFirst(b, rest, '\\');
    ClaimsFromSecondPart(a + "\\" + b + "\\" + rest, b);
  }

  /** The claims depend on the second backslash segment alone. */
  lemma ClaimsFromSecondPart(notes: string, b: string)
    requires |Split(notes, '\\')| > 1 && Split(notes, '\\')[1] == b
    ensures ParseClaims(notes) == if IsBlank(b) then None else Some(Split(b, ','))
  {
    SplitCount(notes, '\\');
  }

  /** `GetRequiredCredentials(rpId)`. */
  function GetRequiredCredentials(notes: NotesCache, store: TrustStore, rpId: string)
    : (r: Fetched<Option<seq<string>>, NotesCache>)
    ensures r.state == GetNotes(notes, store, rpId).state
    ensures r.result.Ok? <==> GetNotes(notes, store, rpId).result.Ok?
    ensures r.result.Ok? ==> r.result.value == Some(ParseCredentials(GetNotes(notes, store, rpId).result.value))
  {
    var n := GetNotes(notes, store, rpId);
    match n.result
    case Err(e) => Fetched(Err(e), n.state)
    case Ok(text) => Fetched(Ok(Some(ParseCredentials(text))), n.state)
  }

  /** `GetRequiredClaims(rpId)`. */
  function GetRequiredClaims(notes: NotesCache, store: TrustStore, rpId: string)
    : (r: Fetched<Option<seq<string>>, NotesCache>)
    ensures r.state == GetNotes(notes, store, rpId).state
    ensures r.result.Ok? <==> GetNotes(notes, store, rpId).result.Ok?
    ensures r.result.Ok? ==> r.result.value == ParseClaims(GetNotes(notes, store, rpId).result.value)
  {
    var n := GetNotes(notes, store, rpId);
    match n.result
    case Err(e) => Fetched(Err(e), n.state)
    case Ok(text) => Fetched(Ok(ParseClaims(text)), n.state)
  }

  /** The built-in provider, as the module sees it. */
  function NotesProvider(store: TrustStore): Provider<NotesCache>
  {
    Provider(
      (notes, rpId) => GetRequiredCredentials(notes, store, rpId),
      (notes, rpId) => GetRequiredClaims(notes, store, rpId))
  }

  /** Because `GetNotes` throws rather than return null, the credentials
      lookup never answers `null`; it fails exactly when the trust is missing
      or its notes are blank. */
  lemma CredentialsNeverNull(notes: NotesCache, store: TrustStore, rpId: string)
    ensures var r := GetRequiredCredentials(notes, store, rpId);
      && (r.result.Ok? ==> r.result.value.Some? && |r.result.value.value| >= 1)
      && (r.result.Err? <==> rpId !in notes && (store(rpId).None? || IsBlank(store(rpId).value)))
  {
  }
}

=== FILE: text.dfy ===
/** The .NET string helpers the module relies on: `char.IsWhiteSpace`,
    `string.IsNullOrWhiteSpace` and `string.Split(char)`, with `Join` as the
    inverse of `Split`. */
module Text {
  import opened Failures

  /** `char.IsWhiteSpace`: the Unicode space, line and paragraph separators,
      the control characters U+0009 to U+000D, and U+0085. */
  predicate IsWhiteSpace(c: char) {
    || ('\U{9}' <= c <= '\U{D}')
    || c == ' ' || c == '\U{85}' || c == '\U{A0}' || c == '\U{1680}'
    || ('\U{2000}' <= c <= '\U{200A}')
    || c == '\U{2028}' || c == '\U{2029}' || c == '\U{202F}' || c == '\U{205F}' || c == '\U{3000}'
  }

  /** `string.IsNullOrWhiteSpace` for a string that is present. */
  predicate IsBlank(s: string) {
    forall i :: 0 <= i < |s| ==> IsWhiteSpace(s[i])
  }

  /** `string.IsNullOrWhiteSpace` for a nullable string. */
  predicate IsNullOrBlank(s: Option<string>) {
    s.None? || IsBlank(s.value)
  }

  /** `string.Join` with a one-character separator; an empty sequence joins to "". */
  function Join(parts: seq<string>, sep: char): string
  {
    if |parts| == 0 then ""
    else if |parts| == 1 then parts[0]
    else parts[0] + [sep] + Join(parts[1..], sep)
  }

  lemma JoinCons(p: string, rest: seq<string>, sep: char)
    requires |rest| >= 1
    ensures Join([p] + rest, sep) == p + [sep] + Join(rest, sep)
  {
    assert ([p] + rest)[1..] == rest;
  }

  /** `s.Split(sep)`: every separator ends a part, so the parts are never
      fewer than one, and empty parts are kept. */
  function Split(s: string, sep: char): (parts: seq<string>)
    ensures |parts| >= 1
    ensures forall i :: 0 <= i < |parts| ==> sep !in parts[i]
    ensures Join(parts, sep) == s
    decreases |s|
  {
    if |s| == 0 then [""]
    else
      var rest := Split(s[1..], sep);
      if s[0] == sep then
        JoinCons("", rest, sep);
        [""] + rest
      else
        var first := [s[0]] + rest[0];
        if |rest| == 1 then [first]
        else
          JoinCons(first, rest[1..], sep);
          [first] + rest[1..]
  }

  /** A string without the separator splits into itself alone. */
  lemma {:induction false} SplitNoSeparator(a: string, sep: char)
    requires sep !in a
    ensures Split(a, sep) == [a]
    decreases |a|
  {
    if |a| > 0 {
      assert a[1..] == a[1..];
      assert sep !in a[1..] by {
        forall i | 0 <= i < |a[1..]| ensures a[1..][i] != sep {
          assert a[1..][i] == a[i + 1];
        }
      }
      SplitNoSeparator(a[1..], sep);
      assert [a[0]] + a[1..] == a;
    }
  }

  /** The text before the first separator is the first part, and the parts
      after it are the split of the rest: later text never changes earlier parts. */
  lemma {:induction false} SplitAtFirst(a: string, t: string, sep: char)
    requires sep !in a
    ensures Split(a + [sep] + t, sep) == [a] + Split(t, sep)
    decreases |a|
  {
    var s := a + [sep] + t;
    if |a| == 0 {
      assert s[0] == sep;
      assert s[1..] == t;
    } else {
      assert s[0] == a[0];
      assert s[1..] == a[1..] + [sep] + t;
      assert sep !in a[1..] by {
        forall i | 0 <= i < |a[1..]| ensures a[1..][i] != sep {
          assert a[1..][i] == a[i + 1];
        }
      }
      SplitAtFirst(a[1..], t, sep);
      assert [a[0]] + a[1..] == a;
    }
  }

  /** `Split` undoes `Join` when no part holds the separator. */
  lemma {:induction false} SplitJoin(parts: seq<string>, sep: char)
    requires |parts| >= 1
    requires forall i :: 0 <= i < |parts| ==> sep !in parts[i]
    ensures Split(Join(parts, sep), sep) == parts
    decreases |parts|
  {
    if |parts| == 1 {
      SplitNoSeparator(parts[0], sep);
    } else {
      SplitJoin(parts[1..], sep);
      SplitAtFirst(parts[0], Join(parts[1..], sep), sep);
      assert [parts[0]] + parts[1..] == parts;
    }
  }
}

=== FILE: xml.dfy ===
/** The part of the .NET XML DOM the module uses, as an immutable element
    tree: elements with a namespace-qualified name, attributes and an ordered
    list of element and text children. Prefixes, comments and processing
    instructions are not represented. Functions that walk a subtree take the
    element and the position of the next child to visit. */
module Xml {
  import opened Failures

  /** A local name in a namespace (the `(localName, namespaceURI)` pair the
      DOM lookups match on). */
  datatype QName = QName(local: string, ns: string)

  datatype Attribute = Attribute(name: string, value: string)

  datatype Node = ElementNode(element: Element) | TextNode(text: string)

  datatype Element = Element(name: QName, attributes: seq<Attribute>, children: seq<Node>)

  /** `XmlNode.InnerText`: the text of every descendant text node, in document order. */
  function InnerText(e: Element): string
  {
    InnerTextFrom(e, 0)
  }

  /** The inner text contributed by the children of `e` from position `i` on. */
  function InnerTextFrom(e: Element, i: nat): string
    requires i <= |e.children|
    decreases e, |e.children| - i
  {
    if i == |e.children| then ""
    else
      (match e.children[i]
       case TextNode(t) => t
       case ElementNode(c) => InnerTextFrom(c, 0))
      + InnerTextFrom(e, i + 1)
  }

  /** Every element strictly below `e`, in document (pre-)order. */
  function Descendants(e: Element): seq<Element>
  {
    DescendantsFrom(e, 0)
  }

  /** The descendants reached through the children of `e` from position `i` on. */
  function DescendantsFrom(e: Element, i: nat): seq<Element>
    requires i <= |e.children|
    decreases e, |e.children| - i
  {
    if i == |e.children| then []
    else
      (match e.children[i]
       case TextNode(_) => []
       case ElementNode(c) => [c] + DescendantsFrom(c, 0))
      + DescendantsFrom(e, i + 1)
  }

  /** The element nodes among `ns`, in order. */
  function ElementsOf(ns: seq<Node>): (r: seq<Element>)
    ensures forall c :: c in r <==> ElementNode(c) in ns
  {
    if |ns| == 0 then []
    else
      (match ns[0]
       case TextNode(_) => []
       case ElementNode(c) => [c])
      + ElementsOf(ns[1..])
  }

  /** The direct element children of `e`, in order. */
  function ChildElements(e: Element): seq<Element>
  {
    ElementsOf(e.children)
  }

  /** The position of the first element named `n`; `None` when there is none. */
  function FirstIndexNamed(es: seq<Element>, n: QName): (r: Option<nat>)
    ensures r.Some? ==> r.value < |es| && es[r.value].name == n
    ensures r.Some? ==> forall j :: 0 <= j < r.value ==> es[j].name != n
    ensures r.None? <==> forall j :: 0 <= j < |es| ==> es[j].name != n
  {
    if |es| == 0 then None
    else if es[0].name == n then Some(0)
    else match FirstIndexNamed(es[1..], n)
      case None => None
      case Some(i) => Some(i + 1)
  }

  /** The first element of `es` named `n`. */
  function FirstNamed(es: seq<Element>, n: QName): Option<Element>
  {
    match FirstIndexNamed(es, n)
    case None => None
    case Some(i) => Some(es[i])
  }

  /** `XmlNode[localName, namespaceURI]`: the first child element with that name. */
  function ChildNamed(e: Element, n: QName): Option<Element>
  {
    FirstNamed(ChildElements(e), n)
  }

  /** The elements of `es` named `n`, in order. */
  function Named(es: seq<Element>, n: QName): (r: seq<Element>)
    ensures forall x :: x in r <==> x in es && x.name == n
  {
    if |es| == 0 then []
    else (if es[0].name == n then [es[0]] else []) + Named(es[1..], n)
  }

  /** `XmlElement.GetElementsByTagName(localName, namespaceURI)`: matching
      elements strictly below `e`, in document order. */
  function ElementsByTagName(e: Element, n: QName): seq<Element>
  {
    Named(Descendants(e), n)
  }

  /** `XmlDocument.GetElementsByTagName(localName, namespaceURI)`: matching
      elements anywhere in the document, the root included, in document order. */
  function DocumentElementsByTagName(root: Element, n: QName): seq<Element>
  {
    Named([root] + Descendants(root), n)
  }

  /** `XmlNode.AppendChild` of a new element: it becomes the last child and
      nothing else changes. */
  function AppendChild(e: Element, c: Element): (r: Element)
    ensures r.name == e.name && r.attributes == e.attributes
    ensures |r.children| == |e.children| + 1
    ensures r.children[..|e.children|] == e.children
    ensures r.children[|e.children|] == ElementNode(c)
  {
    e.(children := e.children + [ElementNode(c)])
  }

  /** An element whose children are all text. */
  predicate IsLeaf(e: Element) {
    forall k :: 0 <= k < |e.children| ==> e.children[k].TextNode?
  }

  /** An element whose children are all leaf elements. */
  predicate IsFlat(e: Element) {
    forall k :: 0 <= k < |e.children| ==> e.children[k].ElementNode? && IsLeaf(e.children[k].element)
  }

  lemma {:induction false} LeafHasNoDescendants(e: Element, i: nat)
    requires i <= |e.children| && IsLeaf(e)
    ensures DescendantsFrom(e, i) == []
    decreases |e.children| - i
  {
    if i < |e.children| {
      LeafHasNoDescendants(e, i + 1);
    }
  }

  lemma {:induction false} ElementsOfSuffix(ns: seq<Node>, i: nat)
    requires i < |ns|
    ensures ElementsOf(ns[i..]) == ElementsOf([ns[i]]) + ElementsOf(ns[i + 1..])
  {
    assert ns[i..][1..] == ns[i + 1..];
  }

  /** Below a flat element, the descendants are exactly the children. */
  lemma {:induction false} FlatDescendants(e: Element, i: nat)
    requires i <= |e.children| && IsFlat(e)
    ensures DescendantsFrom(e, i) == ElementsOf(e.children[i..])
    decreases |e.children| - i
  {
    if i < |e.children| {
      FlatDescendants(e, i + 1);
      LeafHasNoDescendants(e.children[i].element, 0);
      ElementsOfSuffix(e.children, i);
    }
  }

  lemma {:induction false} ElementsOfAppend(ns: seq<Node>, x: Node)
    ensures ElementsOf(ns + [x]) == ElementsOf(ns) + ElementsOf([x])
    decreases |ns|
  {
    if |ns| > 0 {
      assert (ns + [x])[1..] == ns[1..] + [x];
      ElementsOfAppend(ns[1..], x);
    }
  }

  /** Appending an element adds it at the end of the child elements. */
  lemma AppendChildElements(e: Element, c: Element)
    ensures ChildElements(AppendChild(e, c)) == ChildElements(e) + [c]
  {
    ElementsOfAppend(e.children, ElementNode(c));
  }

  /** Looking for the first element named `n` after one more element was
      appended: an earlier match still wins. */
  lemma {:induction false} FirstNamedAppend(es: seq<Element>, c: Element, n: QName)
    ensures FirstNamed(es + [c], n) ==
      if FirstNamed(es, n).Some? then FirstNamed(es, n)
      else if c.name == n then Some(c)
      else None
  {
    var r := FirstIndexNamed(es + [c], n);
    var q := FirstIndexNamed(es, n);
    if q.Some? {
      assert (es + [c])[q.value] == es[q.value];
      assert forall j :: 0 <= j < q.value ==> (es + [c])[j] == es[j];
    } else {
      assert forall j :: 0 <= j < |es| ==> (es + [c])[j] == es[j];
      assert (es + [c])[|es|] == c;
    }
  }

  /** `ChildNamed` after `AppendChild`. */
  lemma ChildNamedAfterAppend(e: Element, c: Element, n: QName)
    ensures ChildNamed(AppendChild(e, c), n) ==
      if ChildNamed(e, n).Some? then ChildNamed(e, n)
      else if c.name == n then Some(c)
      else None
  {
    AppendChildElements(e, c);
    FirstNamedAppend(ChildElements(e), c, n);
  }

  /** `XmlNode.InsertBefore(c, refChild)` where `refChild` is the child at
      position `k`: `c` takes that position and the rest move one along. */
  function InsertChildAt(e: Element, k: nat, c: Element): (r: Element)
    requires k <= |e.children|
    ensures r.name == e.name && r.attributes == e.attributes
    ensures |r.children| == |e.children| + 1
    ensures r.children[..k] == e.children[..k] && r.children[k] == ElementNode(c)
    ensures r.children[k + 1..] == e.children[k..]
  {
    e.(children := e.children[..k] + [ElementNode(c)] + e.children[k..])
  }

  /** Whether a child node is an element named `n`. */
  predicate IsElementNamed(x: Node, n: QName) {
    x.ElementNode? && x.element.name == n
  }

  /** The position among the child nodes `ns` of the first element named `n`. */
  function FirstNodeIndexNamed(ns: seq<Node>, n: QName): (r: Option<nat>)
    ensures r.Some? ==> r.value < |ns| && IsElementNamed(ns[r.value], n)
    ensures r.Some? ==> forall j :: 0 <= j < r.value ==> !IsElementNamed(ns[j], n)
    ensures r.None? <==> forall j :: 0 <= j < |ns| ==> !IsElementNamed(ns[j], n)
  {
    if |ns| == 0 then None
    else if IsElementNamed(ns[0], n) then Some(0)
    else match FirstNodeIndexNamed(ns[1..], n)
      case None => None
      case Some(i) => Some(i + 1)
  }

  lemma FirstNamedCons(c: Element, rest: seq<Element>, n: QName)
    ensures FirstNamed([c] + rest, n) == if c.name == n then Some(c) else FirstNamed(rest, n)
  {
    assert ([c] + rest)[1..] == rest;
  }

  /** In a concatenation the first match of the left part wins. */
  lemma {:induction false} FirstNamedConcat(a: seq<Element>, b: seq<Element>, n: QName)
    ensures FirstNamed(a + b, n) == if FirstNamed(a, n).Some? then FirstNamed(a, n) else FirstNamed(b, n)
    decreases |a|
  {
    if |a| == 0 {
      assert a + b == b;
    } else {
      assert a + b == [a[0]] + (a[1..] + b);
      assert a == [a[0]] + a[1..];
      FirstNamedCons(a[0], a[1..] + b, n);
      FirstNamedCons(a[0], a[1..], n);
      FirstNamedConcat(a[1..], b, n);
    }
  }

  lemma {:induction false} ElementsOfConcat(a: seq<Node>, b: seq<Node>)
    ensures ElementsOf(a + b) == ElementsOf(a) + ElementsOf(b)
    decreases |a|
  {
    if |a| > 0 {
      assert (a + b)[1..] == a[1..] + b;
      ElementsOfConcat(a[1..], b);
    } else {
      assert a + b == b;
    }
  }

  /** The first element child named `n` sits at the first node position
      holding an element named `n`. */
  lemma {:induction false} FirstNamedNodes(ns: seq<Node>, n: QName)
    ensures FirstNamed(ElementsOf(ns), n) ==
      match FirstNodeIndexNamed(ns, n)
      case None => None
      case Some(k) => Some(ns[k].element)
    decreases |ns|
  {
    if |ns| > 0 {
      FirstNamedNodes(ns[1..], n);
      match ns[0]
      case TextNode(_) =>
        assert ElementsOf(ns) == ElementsOf(ns[1..]);
      case ElementNode(c) =>
        FirstNamedCons(c, ElementsOf(ns[1..]), n);
    }
  }

  /** What `ChildNamed` finds after `InsertChildAt`: the inserted element
      when nothing by its name was there, and otherwise what it found before
      whenever the inserted element has another name. */
  lemma ChildNamedAfterInsert(e: Element, k: nat, c: Element, n: QName)
    requires k <= |e.children|
    ensures c.name != n ==> ChildNamed(InsertChildAt(e, k, c), n) == ChildNamed(e, n)
    ensures c.name == n && ChildNamed(e, n).None? ==> ChildNamed(InsertChildAt(e, k, c), n) == Some(c)
  {
    var (a, b) := (e.children[..k], e.children[k..]);
    assert e.children == a + b;
    assert InsertChildAt(e, k, c).children == a + ([ElementNode(c)] + b);
    ElementsOfConcat(a, b);
    ElementsOfConcat(a, [ElementNode(c)] + b);
    ElementsOfConcat([ElementNode(c)], b);
    assert ElementsOf([ElementNode(c)]) == [c];
    FirstNamedConcat(ElementsOf(a), ElementsOf(b), n);
    FirstNamedConcat(ElementsOf(a), [c] + ElementsOf(b), n);
    FirstNamedCons(c, ElementsOf(b), n);
  }

  /** The elements of `es` are all named `n`, so `Named` keeps them all. */
  lemma {:induction false} NamedAll(es: seq<Element>, n: QName)
    requires forall j :: 0 <= j < |es| ==> es[j].name == n
    ensures Named(es, n) == es
    decreases |es|
  {
    if |es| > 0 {
      NamedAll(es[1..], n);
    }
  }

  /** An element of another name in front changes nothing. */
  lemma NamedSkipsHead(x: Element, es: seq<Element>, n: QName)
    requires x.name != n
    ensures Named([x] + es, n) == Named(es, n)
  {
    assert ([x] + es)[1..] == es;
  }

  /** `Named` distributes over concatenation. */
  lemma {:induction false} NamedConcat(a: seq<Element>, b: seq<Element>, n: QName)
    ensures Named(a + b, n) == Named(a, n) + Named(b, n)
    decreases |a|
  {
    if |a| > 0 {
      assert (a + b)[1..] == a[1..] + b;
      NamedConcat(a[1..], b, n);
    } else {
      assert a + b == b;
    }
  }

  /** `XmlElement.GetAttribute(name)`: the value of the first attribute with
      that name; the DOM's empty string for a missing one is `None` here. */
  function GetAttribute(e: Element, name: string): (r: Option<string>)
    ensures r.None? <==> forall j :: 0 <= j < |e.attributes| ==> e.attributes[j].name != name
    ensures r.Some? ==> exists j :: 0 <= j < |e.attributes| && e.attributes[j] == Attribute(name, r.value)
  {
    AttributeIn(e.attributes, name)
  }

  function AttributeIn(attrs: seq<Attribute>, name: string): (r: Option<string>)
    ensures r.None? <==> forall j :: 0 <= j < |attrs| ==> attrs[j].name != name
    ensures r.Some? ==> exists j :: 0 <= j < |attrs| && attrs[j] == Attribute(name, r.value)
  {
    if |attrs| == 0 then None
    else if attrs[0].name == name then Some(attrs[0].value)
    else
      var r := AttributeIn(attrs[1..], name);
      assert r.Some? ==> exists j :: 0 <= j < |attrs| && attrs[j] == Attribute(name, r.value) by {
        if r.Some? {
          var j :| 0 <= j < |attrs[1..]| && attrs[1..][j] == Attribute(name, r.value);
          assert attrs[j + 1] == Attribute(name, r.value);
        }
      }
      r
  }

  /** The first element `Named` returns is the one `FirstNamed` finds. */
  lemma {:induction false} NamedHead(es: seq<Element>, n: QName)
    ensures |Named(es, n)| > 0 <==> FirstNamed(es, n).Some?
    ensures |Named(es, n)| > 0 ==> Named(es, n)[0] == FirstNamed(es, n).value
    decreases |es|
  {
    if |es| > 0 {
      NamedHead(es[1..], n);
      assert es == [es[0]] + es[1..];
      FirstNamedCons(es[0], es[1..], n);
    }
  }

  /** When every node is an element, `ElementsOf` keeps them all, in order. */
  lemma {:induction false} ElementsOfElements(ns: seq<Node>)
    requires forall j :: 0 <= j < |ns| ==> ns[j].ElementNode?
    ensures |ElementsOf(ns)| == |ns|
    ensures forall j :: 0 <= j < |ns| ==> ElementsOf(ns)[j] == ns[j].element
    decreases |ns|
  {
    if |ns| > 0 {
      ElementsOfElements(ns[1..]);
    }
  }
}
